=== FILE: README.md ===
# Update engine: failure classifier, preference store and partition-control contracts

This project models three parts of the update engine in Dafny and proves
properties of them.

- **Failure and telemetry classifier** (`metrics_utils.cc`). It maps an update
  `ErrorCode` to its `metrics::AttemptResult` bucket and to a
  `metrics::DownloadErrorCode`. It maps the network manager's connection type
  and tethering state to `metrics::ConnectionType`. It also reads and writes
  the per-attempt checkpoint values in the preference store, and computes the
  time-to-reboot report.
- **Preference store contract** (`PrefsInterface`). This is a reference
  store. It holds typed entries (string, `int64_t`, boolean), per-key
  observers, hierarchical sub keys joined with `'/'`, namespace-suffix
  deletion, and a shadow-copy transaction.
- **Dynamic partition control** (`FeatureFlag` and two documented result
  contracts). `PreparePartitionsForUpdate` reports `required_size`, and
  `UpdateUsesSnapshotCompression` may only be called inside a window of the
  update lifecycle.

Modules, one per file:

| module | file | contents |
|---|---|---|
| `Wrappers` | `wrappers.dfy` | `Option` |
| `ErrorCodes` | `error_codes.dfy` | `ErrorCode` as a 32-bit pattern, its enumerators, flag masking |
| `Metrics`, `Network` | `metrics.dfy` | the telemetry and network enumerations |
| `AttemptResults` | `attempt_results.dfy` | `GetAttemptResult` |
| `DownloadErrors` | `download_errors.dfy` | `GetDownloadErrorCode` |
| `ConnectionTypes` | `connection_types.dfy` | `GetConnectionType` |
| `SubKeys` | `sub_keys.dfy` | `CreateSubKey`, `kKeySeparator`, key splitting |
| `Prefs` | `prefs.dfy` | the reference preference store |
| `MetricsPersistence` | `metrics_persistence.dfy` | `GetPersistedValue`, the five setters, `LoadAndReportTimeToReboot` |
| `DynamicPartitionControl` | `dynamic_partition_control.dfy` | `FeatureFlag`, the update lifecycle, the two contracts |

## Modelling decisions

- **Error codes.** An `ErrorCode` is its 32-bit pattern read as an unsigned
  number. The source's `code & ~kSpecialFlags` becomes `code % 2^28`. Flag bits
  are OR-ed and cleared on the top four bits. The source's signed comparison
  `base_code >= kOmahaRequestHTTPResponseBase` is taken on `SignedValue`, the
  pattern read as a signed `int`.
- **Numeric values.** The enumerator values follow the upstream `error_code.h`
  (`kSuccess` = 0 up to `kUpdateAlreadyInstalled` = 66, `kUmaReportedMax` = 67,
  HTTP base 2000, flags at bits 31 down to 28). The `metrics::DownloadErrorCode`
  values follow `metrics_constants.h`. Neither header is part of this model.
  The proofs rely only on three facts:
  - the base codes are pairwise distinct;
  - every base code lies below 2000;
  - the flags have the layout above.
- **Out-of-range enumeration values.** `Network.ConnectionType` has an extra
  variant, `Unrecognized`. It stands for an out-of-range value of the C++
  `enum class`, which reaches the fall-through after the switch at
  `metrics_utils.cc:296-300`.
- **The store.** The concrete store is not part of this model, so `Prefs` is a
  reference design.
  - It keeps a committed map, an optional shadow map and a registry from each
    key to its observers.
  - Values are typed. Reading a value as another type fails, so "absent" and
    "present but unreadable" differ, as `metrics_utils.cc:305-310` requires.
  - Keys are non-empty strings over letters, digits, `_`, `-` and `/`. Set and
    Delete fail on any other key, which is how their `false` results are
    modelled.
  - While a transaction is open, reads and writes use the shadow copy.
  - Transactions do not nest: `StartTransaction` fails while one is open.
- **`Delete` of a missing key.** The header says a missing key "does nothing"
  (`common/prefs_interface.h:79-81`). It also says observers are called
  whenever `Delete()` is called on their key (lines 96-99). The model keeps
  both promises:
  - the entries stay exactly as they were;
  - the call succeeds;
  - the key's observers are still told.
- **Clock and reporter.** The clock's monotonic time is an `int64` parameter,
  in microseconds. The metrics reporter's `ReportTimeToReboot` becomes the
  `Some(minutes)` result of `LoadAndReportTimeToReboot`.
- **Partition control.** Only the lifecycle is modelled, as a phase:
  - `Idle`;
  - `Prepared(compression)`, after a successful `PreparePartitionsForUpdate`;
  - `Finished(compression)`, after `FinishUpdate`;
  - `Rebooted(compression)`, after the device rebooted into the finished
    update, which then waits to be merged.

  Whether a prepare succeeds, fails for lack of space or fails otherwise comes
  from the environment, as a `PrepareVerdict`. The two teardowns differ, as
  `common/dynamic_partition_control_interface.h:141-143` says:
  - running the cleanup action merges and cleans up only an update that was
    rebooted into; while an update is still in progress (prepared or
    finished) it does nothing;
  - `ResetUpdate` frees the update's space in every phase.

  The header expects `ResetUpdate` to be called before the reboot. The model
  does not restrict its callers and lets it end the update in any phase.

  The header also expects the cleanup action to run before the next update
  is applied (`common/dynamic_partition_control_interface.h:118-119`). The
  model does not enforce this order. A successful prepare in any phase,
  including `Rebooted`, starts the new update and replaces the unmerged one.

**Code vs. a plain reading of the comments.** The switch in `GetAttemptResult`
has labels for the special flags, and the comment at `metrics_utils.cc:131-133`
says these "can't happen". That is true: the mask removes every flag bit first.
So a code made only of flag bits, including `kDevModeFlag` and `kSpecialFlags`
themselves, masks to `kSuccess` and is classified as `UpdateSucceeded`, not
`InternalError`. The model follows the code (`FlagsOnlyClassifyAsSuccess`).
For the same reason, the switch in `GetDownloadErrorCode` never sees a flagged
HTTP code.

## Model

| member | source | states |
|---|---|---|
| ErrorCodes.MaskSpecialFlags | metrics_utils.cc:34-35 | The masked code lies below the lowest flag bit. The code is its flag bits followed by the masked code, so masking removes the flag bits and nothing else. |
| ErrorCodes.MaskSplitsCode | metrics_utils.cc:34-35 | Masking keeps exactly the low 28 bits. The masked code is below the lowest flag bit. The masked code plus the flag bits gives back the code. Masking changes nothing exactly when no flag is set. |
| ErrorCodes.MaskIgnoresFlags | metrics_utils.cc:34-35 | Setting flags with a bitwise OR, or clearing them with `code & ~flags`, never changes the masked code. |
| ErrorCodes.SpecialFlagsIsUnionOfFlags | metrics_utils.cc:151-152 | `kSpecialFlags` is the OR of `kDevModeFlag`, `kResumedFlag`, `kTestImageFlag` and `kTestOmahaUrlFlag`. |
| ErrorCodes.MaskIdempotent | metrics_utils.cc:34-35 | Masking an already masked code changes nothing. |
| ErrorCodes.MaskedIsNonNegative | metrics_utils.cc:154 | A masked code is non-negative as a signed `int`. So the signed comparison with the HTTP base agrees with the unsigned one. |
| ErrorCodes.DevModeFlagIsNegative | metrics_utils.cc:151-154 | A code with `kDevModeFlag` set is negative as a signed `int`. This is why the mask must be applied before the comparison. |
| AttemptResults.GetAttemptResult | metrics_utils.cc:33-148 | A code is classified as `UpdateSucceeded` if and only if its masked code is `kSuccess`. A masked code at or past `kUmaReportedMax` is an `InternalError`. |
| AttemptResults.AttemptResultIgnoresFlags | metrics_utils.cc:33-37 | The bucket of a code does not change when special flags are set or cleared, or when the code is masked. |
| AttemptResults.AttemptResultBuckets | metrics_utils.cc:37-129 | For each bucket other than `InternalError`: a code lands in it if and only if its masked code is one of the enumerators listed for it. |
| AttemptResults.AttemptResultUnexpectedIsInternalError | metrics_utils.cc:104-147 | A code is classified as `InternalError` if and only if its masked code meets one of two conditions. Either it is one of the nineteen enumerators the attempt stage never expects, or `kUpdateProcessing`, or `kUpdateAlreadyInstalled`. Or it is `kUmaReportedMax` or larger, which includes every HTTP code. |
| AttemptResults.FlagsOnlyClassifyAsSuccess | metrics_utils.cc:34-39 | A code made only of flag bits, including `kDevModeFlag` and `kSpecialFlags`, masks to `kSuccess` and is classified as `UpdateSucceeded`. |
| AttemptResults.DownloadErrorAgreesWithAttemptResult | metrics_utils.cc:44-48 | Outside the HTTP sub-range, the download error is a named transfer error exactly when the attempt result is `PayloadDownloadError`. |
| DownloadErrors.GetDownloadErrorCode | metrics_utils.cc:150-269 | Every result is a named enumerator or an HTTP-status value. An HTTP-status value comes only from a code in the HTTP sub-range. |
| DownloadErrors.DownloadErrorInHttpRange | metrics_utils.cc:154-168 | In the HTTP sub-range, status `s`: 200 to 599 gives `kHttpStatus200 + s - 200`, 0 gives `kDownloadError`, and anything else gives `kHttpStatusOther`. |
| DownloadErrors.DownloadErrorOutsideHttpRange | metrics_utils.cc:171-268 | Below the HTTP base: `kDownloadTransferError` gives `kDownloadError`. The three curl and host errors give their same-named values. The result is `kInputMalformed` if and only if the code is none of those four. |
| DownloadErrors.DownloadErrorIgnoresFlags | metrics_utils.cc:150-152 | Setting or clearing special flags never changes the download error. |
| DownloadErrors.EncodedStatus | metrics_utils.cc:155-157 | For every status below 2^16, with any flags, `base + status` lies in the HTTP sub-range and decodes to that status. |
| DownloadErrors.DownloadErrorHttpRoundTrip | metrics_utils.cc:158-161 | Encoding a status from 200 to 599 as `base + status`, with any flags, then classifying it gives `kHttpStatus200 + status - 200`, an HTTP-status value. |
| DownloadErrors.DownloadErrorHttpFallbacks | metrics_utils.cc:162-168 | An encoded status of 0 gives `kDownloadError`. Any other status outside 200 to 599 gives `kHttpStatusOther`. |
| DownloadErrors.DownloadErrorIsHttpValue | metrics_utils.cc:154-161 | Converse of the round trip: an HTTP-status result comes only from a code in the HTTP sub-range with a status from 200 to 599, and is that status's value. |
| DownloadErrors.DownloadErrorHttpInjective | metrics_utils.cc:158-161 | Two codes with the same HTTP-status result carry the same status and the same masked code. That value is none of the named enumerators. |
| ConnectionTypes.GetConnectionType | metrics_utils.cc:271-301 | The result is a tethered variant if and only if the medium is Ethernet or Wi-Fi and tethering is confirmed. `Wimax` and `Bluetooth` are never reported. |
| ConnectionTypes.ConnectionTypeKeepsMedium | metrics_utils.cc:273-300 | The reported connection keeps the medium of every known connection type, whatever the tethering. An unrecognised type is reported as `Unknown`. |
| ConnectionTypes.TetheringMattersOnlyWhenConfirmed | metrics_utils.cc:280-293 | Two tethering states give different results if and only if the medium is Ethernet or Wi-Fi and exactly one of them is `kConfirmed`. For unknown, disconnected and cellular connections, tethering never matters. |
| MetricsPersistence.GetPersistedValue | metrics_utils.cc:303-319 | The result is never negative. A positive result is the stored integer. A non-negative stored integer is returned as-is. |
| MetricsPersistence.PersistedValueDefaultsToZero | metrics_utils.cc:305-310 | A key that is absent, or does not read as an integer, gives 0. |
| MetricsPersistence.PersistedValueRoundTrip | metrics_utils.cc:303-319 | After `SetInt64(key, v)`, the persisted value is `v`, or 0 when `v` is negative. |
| MetricsPersistence.SetNumReboots | metrics_utils.cc:321-326 | Writes the reboot count under `num-reboots`, where `GetInt64` reads it back. The view afterwards is the old view with exactly that entry replaced, so every other entry of every type is unchanged. Exactly the key's observers receive `OnPrefSet`, in order. The observers and the transaction state are unchanged. During a transaction the committed entries are unchanged. Outside one, the committed entries are the new view. |
| MetricsPersistence.SetPayloadAttemptNumber | metrics_utils.cc:328-333 | Writes the attempt number under `payload-attempt-number`, where `GetInt64` reads it back. The view afterwards is the old view with exactly that entry replaced. Exactly the key's observers receive `OnPrefSet`. The observers and the transaction state are unchanged. During a transaction the committed entries are unchanged. Outside one, the committed entries are the new view. |
| MetricsPersistence.SetSystemUpdatedMarker | metrics_utils.cc:335-342 | Writes the clock's monotonic time under `system-updated-marker`, where `GetInt64` reads it back. The view afterwards is the old view with exactly that entry replaced. Exactly the key's observers receive `OnPrefSet`. The observers and the transaction state are unchanged. During a transaction the committed entries are unchanged. Outside one, the committed entries are the new view. |
| MetricsPersistence.SetUpdateTimestampStart | metrics_utils.cc:344-351 | Writes the start time under `update-timestamp-start`, where `GetInt64` reads it back. The view afterwards is the old view with exactly that entry replaced. Exactly the key's observers receive `OnPrefSet`. The observers and the transaction state are unchanged. During a transaction the committed entries are unchanged. Outside one, the committed entries are the new view. |
| MetricsPersistence.SetUpdateBootTimestampStart | metrics_utils.cc:353-360 | Writes the boot start time under `update-boot-timestamp-start`, where `GetInt64` reads it back. The view afterwards is the old view with exactly that entry replaced. Exactly the key's observers receive `OnPrefSet`. The observers and the transaction state are unchanged. During a transaction the committed entries are unchanged. Outside one, the committed entries are the new view. |
| MetricsPersistence.InMinutes | metrics_utils.cc:380 | A non-negative microsecond interval is converted to the whole minutes it contains, rounded down. |
| MetricsPersistence.LoadAndReportTimeToReboot | metrics_utils.cc:362-382 | A report is made if and only if the persisted marker is non-zero and not later than now. The report is the elapsed time in whole minutes. |
| MetricsPersistence.TimeToRebootAfterMarker | metrics_utils.cc:362-382 | After the marker is set to `t`: no report when `t <= 0` or `now < t`, and otherwise exactly `(now - t) / 60e6` minutes. |
| Prefs.GetString | common/prefs_interface.h:48-51 | The read succeeds if and only if a string is stored under the key, and returns that string. |
| Prefs.GetInt64 | common/prefs_interface.h:57-60 | The read succeeds if and only if an integer is stored under the key, and returns that integer. |
| Prefs.GetBoolean | common/prefs_interface.h:66-69 | The read succeeds if and only if a boolean is stored under the key, and returns that boolean. |
| Prefs.SetValue | common/prefs_interface.h:53-73 | The write succeeds if and only if the key is valid. It stores the value under the key, calls `OnPrefSet` on the key's observers in order, and keeps the committed entries while a transaction is open. A failed write changes nothing. |
| Prefs.SetString | common/prefs_interface.h:53-55 | Succeeds if and only if the key is valid. On success `GetString` reads the value back, the view is the old one with exactly that entry replaced, and exactly the key's observers receive `OnPrefSet`. A failed write changes nothing and tells no one. The observers and the transaction state are unchanged. During a transaction the committed entries are unchanged. |
| Prefs.SetInt64 | common/prefs_interface.h:62-64 | Succeeds if and only if the key is valid. On success `GetInt64` reads the value back, the view is the old one with exactly that entry replaced, and exactly the key's observers receive `OnPrefSet`. A failed write changes nothing and tells no one. The observers and the transaction state are unchanged. During a transaction the committed entries are unchanged. |
| Prefs.SetBoolean | common/prefs_interface.h:71-73 | Succeeds if and only if the key is valid. On success `GetBoolean` reads the value back, the view is the old one with exactly that entry replaced, and exactly the key's observers receive `OnPrefSet`. A failed write changes nothing and tells no one. The observers and the transaction state are unchanged. During a transaction the committed entries are unchanged. |
| Prefs.Exists | common/prefs_interface.h:75-77 | A key exists if and only if one of the three typed reads of it succeeds. |
| Prefs.Delete | common/prefs_interface.h:79-81 | Afterwards the key does not exist, and every other entry is unchanged. Deleting a missing key leaves the store as it was. The key's observers receive `OnPrefDeleted`. |
| Prefs.GetSubKeys | common/prefs_interface.h:92-94 | Succeeds if and only if the namespace is a valid key. Lists exactly the stored keys inside it. |
| Prefs.AddObserver | common/prefs_interface.h:96-101 | The observer watches the key afterwards. A new observer is appended after the key's earlier observers, so notifications follow registration order. Adding an observer that already watches the key changes nothing. Every other key's observers and every stored entry are unchanged. |
| Prefs.RemoveObserver | common/prefs_interface.h:103-106 | The observer no longer watches the key. Removing an observer that does not watch the key changes nothing. When the key's list has no repeats, the old list is the new one with the removed observer put back at one position, so the other observers keep their order (the notification order). Lists without repeats stay without repeats. Every other key's observers and every stored entry are unchanged. |
| Prefs.DeleteUnderNamespace | common/prefs_interface.h:83-85 | In one namespace, deletes exactly the stored keys whose last segment is the given name. The notifications are `OnPrefDeleted` to every observer of every deleted key, and to no one else. When no key's observer list repeats an observer, no call is made twice. If the namespace cannot be listed, it fails, changes nothing and tells no one. |
| Prefs.DeleteInNamespaces | common/prefs_interface.h:83-87 | `Delete(pref_key, nss)` removes exactly the key itself and, in each namespace, the keys whose last segment is `pref_key`. Every other entry stays. The notifications are `OnPrefDeleted` to every observer of every removed key, and to every observer of `pref_key` when it is a valid key, even if it was not stored. No one else is told, and no call is made twice. The result is true if and only if every delete succeeded. The store invariant is kept. |
| Prefs.StartTransaction | common/prefs_interface.h:108-110 | Opens a shadow copy equal to the committed entries, leaving the committed entries unchanged. Fails, changing nothing, when a transaction is already open. |
| Prefs.CancelTransaction | common/prefs_interface.h:112-113 | Drops the shadow copy. The committed entries are unchanged. Fails when no transaction is open. |
| Prefs.SubmitTransaction | common/prefs_interface.h:115-117 | The shadow copy becomes the committed entries. Fails when no transaction is open. |
| Prefs.SetGetRoundTrip | common/prefs_interface.h:53-73 | For a valid key and any value, including zero and negative integers, `Set*` then `Get*` of the same type returns the value. The key then exists. |
| Prefs.SetLeavesOtherKeys | common/prefs_interface.h:53-77 | Setting one key leaves every other key's reads and existence unchanged. |
| Prefs.GetMissingKeyFails | common/prefs_interface.h:48-69 | Every typed read of a key that is not present fails. |
| Prefs.WrongTypeExistsButUnreadable | common/prefs_interface.h:75-77 | A key holding a string exists but does not read as an integer. |
| Prefs.DeleteThenGetFails | common/prefs_interface.h:79-81 | After `Delete`, the key does not exist and every typed read of it fails. |
| Prefs.ObserversNotifiedExactly | common/prefs_interface.h:96-99 | A `Set*` calls `OnPrefSet` on exactly the key's observers, and a `Delete` calls `OnPrefDeleted` likewise. No other key is ever named. |
| Prefs.AddedObserverIsNotified | common/prefs_interface.h:96-101 | After `AddObserver(k, o)`, `o` hears of the next `Set*` and `Delete` of `k`. |
| Prefs.UnwatchedKeyNotNotified | common/prefs_interface.h:34-44 | An observer that does not watch a key, and that no later call registers for it, is told nothing about that key over any sequence of calls. |
| Prefs.RemovedObserverNotNotified | common/prefs_interface.h:103-106 | After `RemoveObserver(k, o)`, `o` receives no call for `k` in any later sequence that does not add it back. |
| Prefs.TransactionIsolation | common/prefs_interface.h:108-117 | While a transaction is open, no sequence of calls changes the committed entries. |
| Prefs.CancelRestoresCommitted | common/prefs_interface.h:112-113 | Start, any writes, then Cancel: the committed entries and the view are those at Start. |
| Prefs.SubmitCommitsShadow | common/prefs_interface.h:115-117 | Start, any writes, then Submit: the committed entries equal the transaction's copy. |
| Prefs.ApplyMirrors | common/prefs_interface.h:48-117 | A call depends only on the entries reads see and on the observers. Two stores that agree on both give the same result and observer calls, and agree again afterwards. |
| Prefs.RunMirrors | common/prefs_interface.h:48-117 | The same holds for any sequence of calls. |
| Prefs.RunKeepsTransactionState | common/prefs_interface.h:108-117 | No call other than the transaction calls opens or closes a transaction. |
| Prefs.SubmitMatchesDirectRun | common/prefs_interface.h:108-117 | Start, any calls, then Submit ends in exactly the store that the same calls give without a transaction. The results and observer calls are the same too. |
| Prefs.NoNestedTransactions | common/prefs_interface.h:108-110 | A second `StartTransaction` fails and leaves the open transaction as it is. |
| Prefs.ApplyKeepsValid | common/prefs_interface.h:53-106 | Every call keeps the store invariant: only valid keys are stored, and no observer is registered twice for a key. |
| Prefs.TransactionsKeepValid | common/prefs_interface.h:108-117 | Start, Cancel and Submit keep the store invariant. |
| SubKeys.CreateSubKey | common/prefs_interface.h:89-90 | A joined key starts with its first segment. |
| SubKeys.CreateSubKeySeparators | common/prefs_interface.h:89-90 | A key joined from `n` separator-free segments holds exactly `n - 1` separators. |
| SubKeys.SplitCreateSubKey | common/prefs_interface.h:89-90 | Splitting a sub key at the separator gives back the separator-free segments it was joined from. |
| SubKeys.CreateSubKeySplit | common/prefs_interface.h:120-121 | Joining the segments of any key with `'/'` gives back the key. |
| SubKeys.CreateSubKeyInjective | common/prefs_interface.h:89-90 | Two separator-free segment lists give the same sub key if and only if they are equal. |
| SubKeys.CreateSubKeyAppend | common/prefs_interface.h:89-90 | Joining two concatenated lists puts exactly one separator between the two joins. |
| SubKeys.SubKeyInNamespace | common/prefs_interface.h:89-94 | A sub key made of a namespace path and a name lies inside that namespace, and its last segment is the name. |
| DynamicPartitionControl.FeatureFlag.IsEnabled | common/dynamic_partition_control_interface.h:49 | A flag is enabled if and only if it is retrofitted or launched. |
| DynamicPartitionControl.FeatureFlag.IsRetrofit | common/dynamic_partition_control_interface.h:50 | Holds for exactly the `RETROFIT` flag. A retrofitted flag is never a launch flag. |
| DynamicPartitionControl.FeatureFlag.IsLaunch | common/dynamic_partition_control_interface.h:51 | Holds for exactly the `LAUNCH` flag. |
| DynamicPartitionControl.FeatureFlagPredicates | common/dynamic_partition_control_interface.h:46-55 | `IsEnabled` holds if and only if the value is not `NONE`. `IsRetrofit` holds if and only if it is `RETROFIT`, and `IsLaunch` if and only if it is `LAUNCH`. The last two exclude each other and each implies `IsEnabled`. |
| DynamicPartitionControl.PreparePartitionsForUpdate | common/dynamic_partition_control_interface.h:97-110 | The call succeeds if and only if the environment allows it. `required_size` is non-zero only on failure for lack of space, and then equals the space needed; it is zero otherwise. Success opens the query window; failure keeps the phase. |
| DynamicPartitionControl.FinishUpdate | common/dynamic_partition_control_interface.h:112-114 | A prepared update becomes finished and keeps its compression setting. Any other phase is unchanged. |
| DynamicPartitionControl.Reboot | common/dynamic_partition_control_interface.h:112-113 | A reboot after `FinishUpdate` boots into the finished update, which keeps its compression setting. In any other phase a reboot changes nothing. |
| DynamicPartitionControl.CleanupPreviousUpdate | common/dynamic_partition_control_interface.h:116-143 | Running the cleanup action after the reboot into the update merges it and ends it. While an update is still in progress, prepared or finished, the cleanup does nothing. With no update it does nothing. |
| DynamicPartitionControl.ResetUpdate | common/dynamic_partition_control_interface.h:131-143 | `ResetUpdate` ends the update in every phase, so the next update starts over. |
| DynamicPartitionControl.Step | common/dynamic_partition_control_interface.h:97-143 | `ResetUpdate` always ends the update. A cleanup ends it only after the reboot into it, and otherwise leaves the phase as it was. `FinishUpdate` and a reboot never open or close the window. |
| DynamicPartitionControl.UpdateUsesSnapshotCompression | common/dynamic_partition_control_interface.h:189-197 | Callable only between preparing and merging or resetting: prepared, finished or rebooted into. Returns the compression setting that phase carries. |
| DynamicPartitionControl.WindowOpenedByLastPrepare | common/dynamic_partition_control_interface.h:189-193 | Starting with no update, after any sequence of events, `UpdateUsesSnapshotCompression` may be called if and only if some successful prepare meets two conditions. No successful prepare came after it. No `ResetUpdate` came after it, and no cleanup came after a `FinishUpdate` and a reboot that followed it. A cleanup during the update does not close the window. The reported compression is the one that prepare decided. The phase is still prepared if and only if no `FinishUpdate` followed, and rebooted into if and only if a reboot followed a `FinishUpdate`. |

## Left out

- `payload_consumer/cow_writer_file_descriptor.h`: its behaviour is delegated to a copy-on-write writer and reader that are not part of this model. Its only precondition, block-aligned writes, concerns that writer and not the logic modelled here.
- `common/mock_prefs.h`: a test double with no behaviour of its own.
- `binder_service.cc`: RPC stubs that return success. They are transport plumbing.
- The rest of `DynamicPartitionControlInterface`: the feature-flag getters, `OptimizeOperation`, mapping and unmapping, extent verification, the copy-on-write writers. They are abstract methods with no visible behaviour.
- `GetCleanupPreviousUpdateAction`: its action and its three completion codes are not modelled. A cleanup is assumed to succeed, and only its effect on the query window is modelled. A failed merge (`kError`, `kDeviceCorrupted`) that would leave the update in place is not modelled.
- DynamicPartitionControl.ResetUpdate: the `prefs` argument and the call to `DeltaPerformer::ResetUpdateProgress` are not modelled, because the delta performer and its progress preferences are not part of this model. Only the end of the update, and so of the query window, is modelled. The bool result is not modelled either.
- DynamicPartitionControl.FinishUpdate: the `powerwash_required` argument and the bool result are not modelled. Only the change of phase is.
- DynamicPartitionControl.PreparePartitionsForUpdate: does not model the slots, the manifest, the `update` flag or the `error` out-parameter. The outcome comes from the environment as a verdict. `required_size` is always written, so a null `required_size` pointer is not modelled.
- MetricsPersistence.LoadAndReportTimeToReboot: does not narrow the minute count to the reporter's `int`. The minutes are returned as an unbounded natural number.
- MetricsPersistence.LoadAndReportTimeToReboot: `now - marker` is taken on unbounded integers, so the `int64` overflow of the time subtraction is not modelled. The stored marker is positive, so the difference can leave the `int64` range only when the clock reads below `-2^63 + marker`. The model then reports nothing, as a saturating time subtraction would.
- The `CHECK(prefs)` and `CHECK(clock)` aborts on null collaborators are not modelled. The store and the clock value are always present.
- Logging (`LOG(...)`) has no observable effect on the results and is not modelled.
- The on-disk layout of the store, meaning one file per key with namespaces as directories, is not modelled. Neither is its durability under crashes. Only the logical map is.
- The concrete key-validity rule of the on-disk store is not part of this model. `SubKeys.ValidKey` (non-empty, over letters, digits, `_`, `-` and `/`) is the reference design's choice.
- Observers are identified by number instead of by pointer. Calls made from inside an observer callback are not modelled.

=== FILE: attempt_results.dfy ===
/** `GetAttemptResult` of `metrics_utils.cc`: the bucket of an update
    attempt's outcome, decided by the error code with its special flags
    cleared. */
module AttemptResults {
  import opened ErrorCodes
  import Metrics
  import DownloadErrors

  /** `GetAttemptResult`: clears the special flags, then classifies the
      base code. */
  function GetAttemptResult(code: ErrorCode): (r: Metrics.AttemptResult)
    ensures r == Metrics.UpdateSucceeded <==> MaskSpecialFlags(code) == kSuccess
    ensures MaskSpecialFlags(code) >= kUmaReportedMax ==> r == Metrics.InternalError
  {
    AttemptResultOfBase(MaskSpecialFlags(code))
  }

  /** The switch of `GetAttemptResult`: the bucket of the case label `base`
      matches. The labels that break out of the switch (the markers and
      flags, `kUpdateProcessing`, `kUpdateAlreadyInstalled`) and any value
      that is no enumerator at all fall through to the logged
      `InternalError`. */
  function AttemptResultOfBase(base: ErrorCode): (r: Metrics.AttemptResult)
  {
    match base
    case kSuccess => Metrics.UpdateSucceeded
    case kUpdatedButNotActive => Metrics.UpdateSucceededNotActive
    case kDownloadTransferError | kInternalLibCurlError | kUnresolvedHostError
      | kUnresolvedHostRecovered =>
      Metrics.PayloadDownloadError
    case kDownloadInvalidMetadataSize | kDownloadInvalidMetadataMagicString
      | kDownloadMetadataSignatureError
      | kDownloadMetadataSignatureVerificationError | kPayloadMismatchedType
      | kUnsupportedMajorPayloadVersion | kUnsupportedMinorPayloadVersion
      | kDownloadNewPartitionInfoError | kDownloadSignatureMissingInManifest
      | kDownloadManifestParseError | kDownloadOperationHashMissingError =>
      Metrics.MetadataMalformed
    case kDownloadOperationHashMismatch | kDownloadOperationHashVerificationError =>
      Metrics.OperationMalformed
    case kDownloadOperationExecutionError | kInstallDeviceOpenError
      | kKernelDeviceOpenError | kDownloadWriteError | kFilesystemCopierError
      | kFilesystemVerifierError | kVerityCalculationError | kNotEnoughSpace
      | kDeviceCorrupted | kOverlayfsenabledError =>
      Metrics.OperationExecutionError
    case kDownloadMetadataSignatureMismatch => Metrics.MetadataVerificationFailed
    case kPayloadSizeMismatchError | kPayloadHashMismatchError
      | kDownloadPayloadVerificationError | kSignedDeltaPayloadExpectedError
      | kDownloadPayloadPubKeyVerificationError | kPayloadTimestampError =>
      Metrics.PayloadVerificationFailed
    case kNewRootfsVerificationError | kNewKernelVerificationError
      | kRollbackNotPossible =>
      Metrics.VerificationFailed
    case kPostinstallRunnerError | kPostinstallBootedFromFirmwareB
      | kPostinstallFirmwareRONotUpdatable | kPostInstallMountError =>
      Metrics.PostInstallFailed
    case kUserCanceled => Metrics.UpdateCanceled
    case kError | kOmahaRequestXMLParseError | kOmahaRequestError
      | kOmahaResponseHandlerError | kDownloadStateInitializationError
      | kOmahaRequestEmptyResponseError | kDownloadInvalidMetadataSignature
      | kOmahaResponseInvalid | kOmahaUpdateIgnoredPerPolicy
      | kOmahaErrorInHTTPResponse | kDownloadMetadataSignatureMissingError
      | kOmahaUpdateDeferredForBackoff | kPostinstallPowerwashError
      | kUpdateCanceledByChannelChange | kOmahaRequestXMLHasEntityDecl
      | kOmahaUpdateIgnoredOverCellular | kNoUpdate
      | kFirstActiveOmahaPingSentPersistenceError | kPackageExcludedFromUpdate =>
      Metrics.InternalError
    case kOmahaUpdateDeferredPerPolicy | kNonCriticalUpdateInOOBE => Metrics.UpdateSkipped
    case _ => Metrics.InternalError
  }

  /** Setting or clearing any special-flag bits never changes the bucket:
      only the base code decides. */
  lemma AttemptResultIgnoresFlags(code: ErrorCode, flags: ErrorCode)
    requires IsFlagSet(flags)
    ensures GetAttemptResult(AddFlags(code, flags)) == GetAttemptResult(code)
    ensures GetAttemptResult(ClearFlags(code, flags)) == GetAttemptResult(code)
    ensures GetAttemptResult(MaskSpecialFlags(code)) == GetAttemptResult(code)
  {
    MaskIgnoresFlags(code, flags);
    MaskIdempotent(code);
  }

  /** The enumerators an update attempt never expects to end with. */
  const UnexpectedInAttempt: set<ErrorCode> := {
    kError, kOmahaRequestXMLParseError, kOmahaRequestError, kOmahaResponseHandlerError,
    kDownloadStateInitializationError, kOmahaRequestEmptyResponseError,
    kDownloadInvalidMetadataSignature, kOmahaResponseInvalid, kOmahaUpdateIgnoredPerPolicy,
    kOmahaErrorInHTTPResponse, kDownloadMetadataSignatureMissingError,
    kOmahaUpdateDeferredForBackoff, kPostinstallPowerwashError, kUpdateCanceledByChannelChange,
    kOmahaRequestXMLHasEntityDecl, kOmahaUpdateIgnoredOverCellular, kNoUpdate,
    kFirstActiveOmahaPingSentPersistenceError, kPackageExcludedFromUpdate,
    kUpdateProcessing, kUpdateAlreadyInstalled
  }

  /** A code is classified as `InternalError` exactly when its base code is
      one the attempt stage never expects, or lies past the last enumerator
      (every HTTP-range code included): such codes degrade to a bucket
      instead of failing. */
  lemma AttemptResultUnexpectedIsInternalError(code: ErrorCode)
    ensures GetAttemptResult(code) == Metrics.InternalError
      <==> MaskSpecialFlags(code) in UnexpectedInAttempt || MaskSpecialFlags(code) >= kUmaReportedMax
  {
  }

  /** A value made of special flags only has base code `kSuccess` once
      masked, so it classifies as a success, not as an internal error. */
  lemma FlagsOnlyClassifyAsSuccess(code: ErrorCode)
    requires IsFlagSet(code)
    ensures GetAttemptResult(code) == Metrics.UpdateSucceeded
    ensures GetAttemptResult(kDevModeFlag) == Metrics.UpdateSucceeded
    ensures GetAttemptResult(kSpecialFlags) == Metrics.UpdateSucceeded
  {
  }

  /** Each bucket other than `InternalError` is reached by exactly the
      case labels listed for it, and by no other base code. */
  lemma AttemptResultBuckets(code: ErrorCode)
    ensures GetAttemptResult(code) == Metrics.UpdateSucceeded
      <==> MaskSpecialFlags(code) == kSuccess
    ensures GetAttemptResult(code) == Metrics.UpdateSucceededNotActive
      <==> MaskSpecialFlags(code) == kUpdatedButNotActive
    ensures GetAttemptResult(code) == Metrics.PayloadDownloadError
      <==> MaskSpecialFlags(code) in {kDownloadTransferError, kInternalLibCurlError,
                                      kUnresolvedHostError, kUnresolvedHostRecovered}
    ensures GetAttemptResult(code) == Metrics.MetadataMalformed
      <==> MaskSpecialFlags(code) in {
             kDownloadInvalidMetadataSize, kDownloadInvalidMetadataMagicString,
             kDownloadMetadataSignatureError, kDownloadMetadataSignatureVerificationError,
             kPayloadMismatchedType, kUnsupportedMajorPayloadVersion,
             kUnsupportedMinorPayloadVersion, kDownloadNewPartitionInfoError,
             kDownloadSignatureMissingInManifest, kDownloadManifestParseError,
             kDownloadOperationHashMissingError}
    ensures GetAttemptResult(code) == Metrics.OperationMalformed
      <==> MaskSpecialFlags(code) in {kDownloadOperationHashMismatch,
                                      kDownloadOperationHashVerificationError}
    ensures GetAttemptResult(code) == Metrics.OperationExecutionError
      <==> MaskSpecialFlags(code) in {
             kDownloadOperationExecutionError, kInstallDeviceOpenError,
             kKernelDeviceOpenError, kDownloadWriteError, kFilesystemCopierError,
             kFilesystemVerifierError, kVerityCalculationError, kNotEnoughSpace,
             kDeviceCorrupted, kOverlayfsenabledError}
    ensures GetAttemptResult(code) == Metrics.MetadataVerificationFailed
      <==> MaskSpecialFlags(code) == kDownloadMetadataSignatureMismatch
    ensures GetAttemptResult(code) == Metrics.PayloadVerificationFailed
      <==> MaskSpecialFlags(code) in {
             kPayloadSizeMismatchError, kPayloadHashMismatchError,
             kDownloadPayloadVerificationError, kSignedDeltaPayloadExpectedError,
             kDownloadPayloadPubKeyVerificationError, kPayloadTimestampError}
    ensures GetAttemptResult(code) == Metrics.VerificationFailed
      <==> MaskSpecialFlags(code) in {kNewRootfsVerificationError,
                                      kNewKernelVerificationError, kRollbackNotPossible}
    ensures GetAttemptResult(code) == Metrics.PostInstallFailed
      <==> MaskSpecialFlags(code) in {kPostinstallRunnerError, kPostinstallBootedFromFirmwareB,
                                      kPostinstallFirmwareRONotUpdatable, kPostInstallMountError}
    ensures GetAttemptResult(code) == Metrics.UpdateCanceled
      <==> MaskSpecialFlags(code) == kUserCanceled
    ensures GetAttemptResult(code) == Metrics.UpdateSkipped
      <==> MaskSpecialFlags(code) in {kOmahaUpdateDeferredPerPolicy, kNonCriticalUpdateInOOBE}
  {
  }

  /** The two classifiers agree outside the HTTP sub-range: a code has a
      download category of its own exactly when its attempt bucket is a
      payload download error. */
  lemma DownloadErrorAgreesWithAttemptResult(code: ErrorCode)
    requires !DownloadErrors.InHttpRange(code)
    ensures DownloadErrors.GetDownloadErrorCode(code) != Metrics.kInputMalformed
      <==> GetAttemptResult(code) == Metrics.PayloadDownloadError
  {
    DownloadErrors.DownloadErrorOutsideHttpRange(code);
    AttemptResultBuckets(code);
  }
}

=== FILE: connection_types.dfy ===
/** `GetConnectionType` of `metrics_utils.cc`: the connection reported to
    telemetry, given the network manager's connection type and whether the
    connection is tethered. */
module ConnectionTypes {
  import Metrics
  import Network

  /** `GetConnectionType`. Only a confirmed tethering turns Ethernet or
      Wi-Fi into its tethered variant; a suspected one does not. A type
      value the switch does not list is logged and reported as unknown. */
  function GetConnectionType(t: Network.ConnectionType, tethering: Network.ConnectionTethering)
    : (r: Metrics.ConnectionType)
    ensures r.TetheredEthernet? || r.TetheredWifi? <==>
      (t.Ethernet? || t.Wifi?) && tethering.Confirmed?
    ensures !r.Wimax? && !r.Bluetooth?
  {
    match t
    case Unknown => Metrics.Unknown
    case Disconnected => Metrics.Disconnected
    case Ethernet =>
      if tethering.Confirmed? then Metrics.TetheredEthernet else Metrics.Ethernet
    case Wifi =>
      if tethering.Confirmed? then Metrics.TetheredWifi else Metrics.Wifi
    case Cellular => Metrics.Cellular
    case Unrecognized => Metrics.Unknown
  }

  /** The network connection type a reported connection stands for, with
      the tethering dropped. The reported types the network manager has no
      counterpart for read as unknown. */
  function ReportedMedium(m: Metrics.ConnectionType): (t: Network.ConnectionType)
  {
    match m
    case Unknown => Network.Unknown
    case Ethernet | TetheredEthernet => Network.Ethernet
    case Wifi | TetheredWifi => Network.Wifi
    case Cellular => Network.Cellular
    case Disconnected => Network.Disconnected
    case Wimax | Bluetooth => Network.Unknown
  }

  /** The report keeps the medium of every listed connection type, whatever
      the tethering; a type the switch does not list reads back as
      unknown. */
  lemma ConnectionTypeKeepsMedium(t: Network.ConnectionType, tethering: Network.ConnectionTethering)
    ensures !t.Unrecognized? ==> ReportedMedium(GetConnectionType(t, tethering)) == t
    ensures t.Unrecognized? ==> GetConnectionType(t, tethering) == Metrics.Unknown
  {
  }

  /** Tethering matters only for Ethernet and Wi-Fi, and only a confirmed
      tethering differs from no tethering at all. */
  lemma TetheringMattersOnlyWhenConfirmed(t: Network.ConnectionType,
                                          a: Network.ConnectionTethering,
                                          b: Network.ConnectionTethering)
    ensures GetConnectionType(t, a) != GetConnectionType(t, b) <==>
      (t.Ethernet? || t.Wifi?) && (a.Confirmed? != b.Confirmed?)
  {
  }
}

=== FILE: download_errors.dfy ===
/** `GetDownloadErrorCode` of `metrics_utils.cc`: the download-failure
    category of an error code, including the raw HTTP status carried by
    codes in the HTTP sub-range. */
module DownloadErrors {
  import opened ErrorCodes
  import Metrics

  /** `GetDownloadErrorCode`: the download category of an error code,
      decided by the code with its special flags cleared. */
  function GetDownloadErrorCode(code: ErrorCode): (r: Metrics.DownloadErrorCode)
    ensures r in Metrics.NamedDownloadErrors || Metrics.IsHttpStatusValue(r)
    ensures Metrics.IsHttpStatusValue(r) ==> InHttpRange(code)
  {
    DownloadErrorOfBase(MaskSpecialFlags(code))
  }

  /** The body of `GetDownloadErrorCode` on a masked code. The HTTP
      sub-range is recognised by a signed `int` comparison; a code in it
      carries the raw HTTP status, which maps onto the telemetry
      enumeration for 200 to 599, onto the generic download error for 0
      (no response code obtained) and onto `kHttpStatusOther` otherwise.
      Outside it only the transfer-related codes have a category of their
      own. */
  function DownloadErrorOfBase(base: ErrorCode): (r: Metrics.DownloadErrorCode)
  {
    if SignedValue(base) >= kOmahaRequestHTTPResponseBase then
      var httpStatus := SignedValue(base) - kOmahaRequestHTTPResponseBase;
      if 200 <= httpStatus <= 599 then Metrics.kHttpStatus200 + httpStatus - 200
      else if httpStatus == 0 then Metrics.kDownloadError
      else Metrics.kHttpStatusOther
    else
      match base
      case kDownloadTransferError => Metrics.kDownloadError
      case kInternalLibCurlError => Metrics.kInternalLibCurlError
      case kUnresolvedHostError => Metrics.kUnresolvedHostError
      case kUnresolvedHostRecovered => Metrics.kUnresolvedHostRecovered
      case _ => Metrics.kInputMalformed
  }

  /** The masked code lies in the HTTP sub-range. */
  predicate InHttpRange(code: ErrorCode) {
    MaskSpecialFlags(code) >= kOmahaRequestHTTPResponseBase
  }

  /** The HTTP status a code in the HTTP sub-range carries: its distance
      from `kOmahaRequestHTTPResponseBase`. */
  function HttpStatusOf(code: ErrorCode): (status: nat)
    requires InHttpRange(code)
  {
    MaskSpecialFlags(code) - kOmahaRequestHTTPResponseBase
  }

  /** Inside the HTTP sub-range: statuses 200 to 599 map onto their own
      telemetry values, status 0 is a generic download error and any other
      status is `kHttpStatusOther`. */
  lemma DownloadErrorInHttpRange(code: ErrorCode)
    requires InHttpRange(code)
    ensures 200 <= HttpStatusOf(code) <= 599 ==>
      GetDownloadErrorCode(code) == Metrics.kHttpStatus200 + HttpStatusOf(code) - 200
    ensures HttpStatusOf(code) == 0 ==> GetDownloadErrorCode(code) == Metrics.kDownloadError
    ensures HttpStatusOf(code) != 0 && !(200 <= HttpStatusOf(code) <= 599) ==>
      GetDownloadErrorCode(code) == Metrics.kHttpStatusOther
  {
    MaskedIsNonNegative(code);
  }

  /** Outside the HTTP sub-range only the four transfer-related codes have
      a download category; every other code, including every code the
      download stage never produces, is `kInputMalformed`. */
  lemma DownloadErrorOutsideHttpRange(code: ErrorCode)
    requires !InHttpRange(code)
    ensures MaskSpecialFlags(code) == kDownloadTransferError ==>
      GetDownloadErrorCode(code) == Metrics.kDownloadError
    ensures MaskSpecialFlags(code) == kInternalLibCurlError ==>
      GetDownloadErrorCode(code) == Metrics.kInternalLibCurlError
    ensures MaskSpecialFlags(code) == kUnresolvedHostError ==>
      GetDownloadErrorCode(code) == Metrics.kUnresolvedHostError
    ensures MaskSpecialFlags(code) == kUnresolvedHostRecovered ==>
      GetDownloadErrorCode(code) == Metrics.kUnresolvedHostRecovered
    ensures GetDownloadErrorCode(code) == Metrics.kInputMalformed <==>
      MaskSpecialFlags(code) !in {kDownloadTransferError, kInternalLibCurlError,
                                  kUnresolvedHostError, kUnresolvedHostRecovered}
  {
    MaskedIsNonNegative(code);
  }

  /** Setting or clearing special flags never changes the download
      category. */
  lemma DownloadErrorIgnoresFlags(code: ErrorCode, flags: ErrorCode)
    requires IsFlagSet(flags)
    ensures GetDownloadErrorCode(AddFlags(code, flags)) == GetDownloadErrorCode(code)
    ensures GetDownloadErrorCode(ClearFlags(code, flags)) == GetDownloadErrorCode(code)
  {
    MaskIgnoresFlags(code, flags);
  }

  /** An encoded HTTP status, with any flags, lies in the HTTP sub-range
      and carries that status. */
  lemma EncodedStatus(status: int, flags: ErrorCode)
    requires 0 <= status < 0x1_0000
    requires IsFlagSet(flags)
    ensures InHttpRange(AddFlags(HttpResponseCode(status), flags))
    ensures HttpStatusOf(AddFlags(HttpResponseCode(status), flags)) == status
  {
    MaskIgnoresFlags(HttpResponseCode(status), flags);
  }

  /** Encoding an HTTP status from 200 to 599 into an error code, with any
      flags, and classifying it gives the status's own telemetry value. */
  lemma DownloadErrorHttpRoundTrip(status: int, flags: ErrorCode)
    requires 200 <= status <= 599
    requires IsFlagSet(flags)
    ensures GetDownloadErrorCode(AddFlags(HttpResponseCode(status), flags))
      == Metrics.kHttpStatus200 + status - 200
    ensures Metrics.IsHttpStatusValue(GetDownloadErrorCode(AddFlags(HttpResponseCode(status), flags)))
  {
    EncodedStatus(status, flags);
    DownloadErrorInHttpRange(AddFlags(HttpResponseCode(status), flags));
  }

  /** An encoded status 0 is a generic download error; an encoded status
      outside 200 to 599 is `kHttpStatusOther`. */
  lemma DownloadErrorHttpFallbacks(status: int, flags: ErrorCode)
    requires 0 <= status < 0x1_0000
    requires IsFlagSet(flags)
    ensures status == 0 ==>
      GetDownloadErrorCode(AddFlags(HttpResponseCode(status), flags)) == Metrics.kDownloadError
    ensures status != 0 && !(200 <= status <= 599) ==>
      GetDownloadErrorCode(AddFlags(HttpResponseCode(status), flags)) == Metrics.kHttpStatusOther
  {
    EncodedStatus(status, flags);
    DownloadErrorInHttpRange(AddFlags(HttpResponseCode(status), flags));
  }

  /** A telemetry value in the HTTP-status range comes only from a code in
      the HTTP sub-range whose status is 200 to 599. */
  lemma DownloadErrorIsHttpValue(code: ErrorCode)
    requires Metrics.IsHttpStatusValue(GetDownloadErrorCode(code))
    ensures InHttpRange(code)
    ensures 200 <= HttpStatusOf(code) <= 599
    ensures GetDownloadErrorCode(code) == Metrics.kHttpStatus200 + HttpStatusOf(code) - 200
  {
    if !InHttpRange(code) {
      DownloadErrorOutsideHttpRange(code);
    }
    DownloadErrorInHttpRange(code);
  }

  /** Distinct HTTP statuses from 200 to 599 give distinct telemetry
      values, none of which is a named download error: the value determines
      the masked code. */
  lemma DownloadErrorHttpInjective(c1: ErrorCode, c2: ErrorCode)
    requires Metrics.IsHttpStatusValue(GetDownloadErrorCode(c1))
    requires GetDownloadErrorCode(c1) == GetDownloadErrorCode(c2)
    ensures InHttpRange(c1) && InHttpRange(c2)
    ensures HttpStatusOf(c1) == HttpStatusOf(c2)
    ensures MaskSpecialFlags(c1) == MaskSpecialFlags(c2)
    ensures GetDownloadErrorCode(c1) !in Metrics.NamedDownloadErrors
  {
    DownloadErrorIsHttpValue(c1);
    DownloadErrorIsHttpValue(c2);
  }
}

=== FILE: dynamic_partition_control.dfy ===
/** The value type and the two documented result contracts of
    `DynamicPartitionControlInterface`. The interface itself is abstract
    (its implementations drive libsnapshot and device-mapper), so the
    update lifecycle it documents is modelled as an abstract phase, and the
    outcome of preparing the partitions as a verdict supplied by the
    environment. */
module DynamicPartitionControl {

  type uint64 = x: int | 0 <= x < 0x1_0000_0000_0000_0000

  /** `FeatureFlag::Value`. */
  datatype FeatureFlagValue = NONE | RETROFIT | LAUNCH

  /** `FeatureFlag`: an immutable tri-state flag of a device feature. */
  datatype FeatureFlag = FeatureFlag(value: FeatureFlagValue) {

    /** The feature is present, retrofitted or from launch. */
    function IsEnabled(): (enabled: bool)
      ensures enabled <==> IsRetrofit() || IsLaunch()
    {
      value != NONE
    }

    /** The feature was added to a device that launched without it. */
    function IsRetrofit(): (retrofit: bool)
      ensures retrofit ==> !IsLaunch()
      ensures retrofit <==> this == FeatureFlag(RETROFIT)
    {
      value == RETROFIT
    }

    /** The device launched with the feature. */
    function IsLaunch(): (launch: bool)
      ensures launch <==> this == FeatureFlag(LAUNCH)
    {
      value == LAUNCH
    }
  }

  /** The three predicates partition the flags: a flag is enabled exactly
      when it is retrofitted or launched, never both, and each predicate
      picks out exactly one value. */
  lemma FeatureFlagPredicates(f: FeatureFlag)
    ensures f.IsEnabled() <==> f.IsRetrofit() || f.IsLaunch()
    ensures !(f.IsRetrofit() && f.IsLaunch())
    ensures !f.IsEnabled() <==> f == FeatureFlag(NONE)
    ensures f.IsRetrofit() <==> f == FeatureFlag(RETROFIT)
    ensures f.IsLaunch() <==> f == FeatureFlag(LAUNCH)
  {
  }

  // ---------------------------------------------------------------------
  // Update lifecycle

  /** Where the device stands in applying an update. Every phase but
      `Idle` carries whether the prepared update uses snapshot
      compression. */
  datatype Phase =
    | Idle
    | Prepared(usesCompression: bool)
    | Finished(usesCompression: bool)
    | Rebooted(usesCompression: bool)

  /** How preparing the partitions turned out, as decided by the device:
      success (with or without snapshot compression), a shortfall of free
      space on the userdata partition, or any other failure. */
  datatype PrepareVerdict =
    | Succeeded(usesCompression: bool)
    | InsufficientSpace(needed: uint64)
    | OtherFailure

  /** The results of `PreparePartitionsForUpdate`: its return value, the
      value written to `required_size`, and the phase afterwards. */
  datatype PrepareResult = PrepareResult(ok: bool, requiredSize: uint64, phase: Phase)

  /** `PreparePartitionsForUpdate`: `required_size` holds the space still
      needed when the call fails for lack of space, and zero when it
      succeeds or fails for any other reason. A successful call opens the
      window in which the update can be queried; a failed one leaves the
      phase as it was. */
  function PreparePartitionsForUpdate(phase: Phase, verdict: PrepareVerdict): (r: PrepareResult)
    ensures r.ok <==> verdict.Succeeded?
    ensures r.requiredSize != 0 ==> !r.ok && verdict.InsufficientSpace?
    ensures verdict.InsufficientSpace? ==> r.requiredSize == verdict.needed
    ensures r.ok ==> r.phase == Prepared(verdict.usesCompression)
    ensures !r.ok ==> r.phase == phase
  {
    match verdict
    case Succeeded(compression) => PrepareResult(true, 0, Prepared(compression))
    case InsufficientSpace(needed) => PrepareResult(false, needed, phase)
    case OtherFailure => PrepareResult(false, 0, phase)
  }

  /** `FinishUpdate`: writes to the new partitions are done; the update
      stays queryable until it is merged or reset. */
  function FinishUpdate(phase: Phase): (r: Phase)
    ensures phase.Prepared? ==> r == Finished(phase.usesCompression)
    ensures !phase.Prepared? ==> r == phase
  {
    match phase
    case Prepared(compression) => Finished(compression)
    case _ => phase
  }

  /** The device rebooted. A finished update is now the running slot and
      waits to be merged; in any other phase nothing changes. */
  function Reboot(phase: Phase): (r: Phase)
    ensures phase.Finished? ==> r == Rebooted(phase.usesCompression)
    ensures !phase.Finished? ==> r == phase
  {
    match phase
    case Finished(compression) => Rebooted(compression)
    case _ => phase
  }

  /** Running the action of `GetCleanupPreviousUpdateAction`: after the
      reboot into the updated slot it merges the update and cleans up, so
      no update is prepared any more. While an update is still in progress
      (prepared or finished, not yet rebooted into) it does nothing. */
  function CleanupPreviousUpdate(phase: Phase): (r: Phase)
    ensures phase.Rebooted? ==> r == Idle
    ensures phase.Prepared? || phase.Finished? || phase.Idle? ==> r == phase
  {
    if phase.Rebooted? then Idle else phase
  }

  /** `ResetUpdate`: frees the space of the update whatever its phase; the
      next update starts over. */
  function ResetUpdate(phase: Phase): (r: Phase)
    ensures r.Idle?
  {
    Idle
  }

  /** The two ways an update is torn down. */
  datatype Teardown = CleanupPreviousUpdateAction | ResetUpdateCall

  /** Events of the lifecycle, in the order the device sees them. */
  datatype Event =
    | Prepare(verdict: PrepareVerdict)
    | Finish
    | DeviceReboot
    | TearDown(how: Teardown)

  /** The phase after one event. */
  function Step(phase: Phase, e: Event): (r: Phase)
    ensures e == TearDown(ResetUpdateCall) ==> r == Idle
    ensures e == TearDown(CleanupPreviousUpdateAction) ==>
      (phase.Rebooted? ==> r == Idle) && (!phase.Rebooted? ==> r == phase)
    ensures e.Finish? || e.DeviceReboot? ==> (phase.Idle? <==> r.Idle?)
  {
    match e
    case Prepare(verdict) => PreparePartitionsForUpdate(phase, verdict).phase
    case Finish => FinishUpdate(phase)
    case DeviceReboot => Reboot(phase)
    case TearDown(CleanupPreviousUpdateAction) => CleanupPreviousUpdate(phase)
    case TearDown(ResetUpdateCall) => ResetUpdate(phase)
  }

  /** The phase after a sequence of events, the last one applied last. */
  function Replay(phase: Phase, es: seq<Event>): Phase
    decreases |es|
  {
    if |es| == 0 then phase else Step(Replay(phase, es[..|es| - 1]), es[|es| - 1])
  }

  /** The window in which `UpdateUsesSnapshotCompression` may be called:
      after preparing the partitions and before merging or resetting. */
  predicate InCompressionQueryWindow(phase: Phase) {
    !phase.Idle?
  }

  /** `UpdateUsesSnapshotCompression`: whether the prepared update uses
      snapshot compression. Callable only inside the window. */
  function UpdateUsesSnapshotCompression(phase: Phase): (compressed: bool)
    requires InCompressionQueryWindow(phase)
    ensures phase == Prepared(compressed) || phase == Finished(compressed)
      || phase == Rebooted(compressed)
  {
    phase.usesCompression
  }

  // ---------------------------------------------------------------------
  // The query window over a sequence of events

  /** Event `i` of `es` is a successful prepare. */
  predicate SuccessfulPrepare(es: seq<Event>, i: nat) {
    i < |es| && es[i].Prepare? && es[i].verdict.Succeeded?
  }

  /** Some `FinishUpdate` happened strictly between events `i` and `j`. */
  predicate FinishedBetween(es: seq<Event>, i: nat, j: nat) {
    exists f :: i < f < j && f < |es| && es[f].Finish?
  }

  /** A `FinishUpdate` and, after it, a reboot happened strictly between
      events `i` and `j`. */
  predicate RebootedBetween(es: seq<Event>, i: nat, j: nat) {
    exists f, b :: i < f < b < j && b < |es| && es[f].Finish? && es[b].DeviceReboot?
  }

  /** Event `j` ends the update prepared at event `i`: a reset, or a
      cleanup once the update was finished and rebooted into. */
  predicate EndsUpdate(es: seq<Event>, i: nat, j: nat) {
    j < |es| && es[j].TearDown?
    && (es[j].how.ResetUpdateCall? || RebootedBetween(es, i, j))
  }

  /** Among the first `k` events, event `i` is the last successful prepare
      and nothing after it ended the update. */
  predicate CurrentPrepare(es: seq<Event>, i: nat, k: nat) {
    i < k && SuccessfulPrepare(es, i)
    && (forall j :: i < j < k ==> !SuccessfulPrepare(es, j))
    && (forall j :: i < j < k ==> !EndsUpdate(es, i, j))
  }

  /** What the phase after the first `k` events says about the update
      prepared at event `i`: it is queryable, with that prepare's
      compression, it is finished once `FinishUpdate` came, and rebooted
      into once a reboot followed. */
  predicate PhaseTracksPrepare(phase: Phase, es: seq<Event>, i: nat, k: nat)
    requires i < |es| && es[i].Prepare? && es[i].verdict.Succeeded?
  {
    && InCompressionQueryWindow(phase)
    && phase.usesCompression == es[i].verdict.usesCompression
    && (phase.Prepared? <==> !FinishedBetween(es, i, k))
    && (phase.Rebooted? <==> RebootedBetween(es, i, k))
  }

  /** One more event that is no successful prepare keeps `i` the last
      successful prepare. */
  lemma LastPrepareStep(es: seq<Event>, i: nat, k: nat)
    requires i < k < |es| && !SuccessfulPrepare(es, k)
    ensures (forall j :: i < j < k + 1 ==> !SuccessfulPrepare(es, j))
      <==> (forall j :: i < j < k ==> !SuccessfulPrepare(es, j))
  {
  }

  /** The progress predicates over one more event. */
  lemma ProgressStep(es: seq<Event>, i: nat, k: nat)
    requires i < k < |es|
    ensures FinishedBetween(es, i, k + 1) <==> FinishedBetween(es, i, k) || es[k].Finish?
    ensures RebootedBetween(es, i, k + 1)
      <==> RebootedBetween(es, i, k) || (es[k].DeviceReboot? && FinishedBetween(es, i, k))
  {
    if FinishedBetween(es, i, k + 1) && !es[k].Finish? {
      var f :| i < f < k + 1 && f < |es| && es[f].Finish?;
      assert f < k;
    }
    if es[k].Finish? {
      assert i < k < k + 1 && es[k].Finish?;
    }
    if RebootedBetween(es, i, k + 1) && !RebootedBetween(es, i, k) {
      var f, b :| i < f < b < k + 1 && b < |es| && es[f].Finish? && es[b].DeviceReboot?;
      assert b == k;
      assert f < k;
    }
    if es[k].DeviceReboot? && FinishedBetween(es, i, k) {
      var f :| i < f < k && f < |es| && es[f].Finish?;
      assert i < f < k < k + 1 && es[f].Finish? && es[k].DeviceReboot?;
    }
  }

  /** An event that is neither a successful prepare nor ends the current
      update keeps it current; one that ends it leaves no current
      prepare. */
  lemma CurrentPrepareStep(es: seq<Event>, i: nat, k: nat)
    requires i < k < |es| && !SuccessfulPrepare(es, k)
    ensures CurrentPrepare(es, i, k + 1) <==> CurrentPrepare(es, i, k) && !EndsUpdate(es, i, k)
  {
    LastPrepareStep(es, i, k);
  }

  /** At most one prepare is current. */
  lemma CurrentPrepareUnique(es: seq<Event>, i: nat, j: nat, k: nat)
    requires CurrentPrepare(es, i, k) && CurrentPrepare(es, j, k)
    ensures i == j
  {
  }

  /** An event that is not a successful prepare carries the window facts
      from the first `n` events to the first `k = n + 1`. */
  lemma NonPrepareStep(es: seq<Event>, n: nat, k: nat, p: Phase)
    requires k == n + 1 && n < |es| && !SuccessfulPrepare(es, n)
    requires InCompressionQueryWindow(p) <==> exists i: nat :: CurrentPrepare(es, i, n)
    requires forall i: nat :: CurrentPrepare(es, i, n) ==> PhaseTracksPrepare(p, es, i, n)
    ensures InCompressionQueryWindow(Step(p, es[n])) <==> exists i: nat :: CurrentPrepare(es, i, k)
    ensures forall i: nat :: CurrentPrepare(es, i, k) ==> PhaseTracksPrepare(Step(p, es[n]), es, i, k)
  {
    var q := Step(p, es[n]);
    forall i: nat | CurrentPrepare(es, i, k)
      ensures CurrentPrepare(es, i, n) && !EndsUpdate(es, i, n)
    {
      CurrentPrepareStep(es, i, n);
    }
    if !InCompressionQueryWindow(p) {
      assert q == p;
    } else {
      var i: nat :| CurrentPrepare(es, i, n);
      forall j: nat | CurrentPrepare(es, j, n) ensures j == i {
        CurrentPrepareUnique(es, i, j, n);
      }
      CurrentPrepareStep(es, i, n);
      ProgressStep(es, i, n);
      if EndsUpdate(es, i, n) {
        assert q.Idle?;
        assert !exists j: nat :: CurrentPrepare(es, j, k);
      } else {
        assert CurrentPrepare(es, i, k);
        assert PhaseTracksPrepare(q, es, i, k);
      }
    }
  }

  /** The window after a successful prepare at event `n`: that prepare is
      the current one, with nothing finished or rebooted since. */
  lemma PrepareStep(es: seq<Event>, n: nat, k: nat, p: Phase)
    requires k == n + 1 && SuccessfulPrepare(es, n)
    ensures InCompressionQueryWindow(Step(p, es[n])) <==> exists i: nat :: CurrentPrepare(es, i, k)
    ensures forall i: nat :: CurrentPrepare(es, i, k) ==> PhaseTracksPrepare(Step(p, es[n]), es, i, k)
  {
    assert CurrentPrepare(es, n, k);
    forall i: nat | CurrentPrepare(es, i, k) ensures i == n {
      CurrentPrepareUnique(es, i, n, k);
    }
  }

  /** The query window after the first `k` events, by induction on `k`. */
  lemma {:induction false} WindowUpTo(es: seq<Event>, k: nat)
    requires k <= |es|
    ensures InCompressionQueryWindow(Replay(Idle, es[..k])) <==> exists i: nat :: CurrentPrepare(es, i, k)
    ensures forall i: nat :: CurrentPrepare(es, i, k) ==> PhaseTracksPrepare(Replay(Idle, es[..k]), es, i, k)
    decreases k
  {
    if k == 0 {
      assert es[..0] == [];
    } else {
      var n := k - 1;
      WindowUpTo(es, n);
      assert es[..k][..n] == es[..n];
      var p := Replay(Idle, es[..n]);
      assert Replay(Idle, es[..k]) == Step(p, es[n]);
      if SuccessfulPrepare(es, n) {
        PrepareStep(es, n, k, p);
      } else {
        NonPrepareStep(es, n, k, p);
      }
    }
  }

  /** With no update prepared at the start, after any sequence of events
      `UpdateUsesSnapshotCompression` may be called exactly when some
      successful prepare has no later successful prepare and was neither
      reset nor cleaned up after the reboot into it. A cleanup that comes
      while the update is still in progress does not close the window. The
      reported compression is the one that prepare decided; the phase is
      finished once `FinishUpdate` came, and rebooted into once a reboot
      followed. */
  lemma WindowOpenedByLastPrepare(es: seq<Event>)
    ensures InCompressionQueryWindow(Replay(Idle, es)) <==> exists i: nat :: CurrentPrepare(es, i, |es|)
    ensures forall i: nat :: CurrentPrepare(es, i, |es|) ==>
      && InCompressionQueryWindow(Replay(Idle, es))
      && UpdateUsesSnapshotCompression(Replay(Idle, es)) == es[i].verdict.usesCompression
      && (Replay(Idle, es).Prepared? <==> !FinishedBetween(es, i, |es|))
      && (Replay(Idle, es).Rebooted? <==> RebootedBetween(es, i, |es|))
  {
    WindowUpTo(es, |es|);
    assert es[..|es|] == es;
  }
}

=== FILE: error_codes.dfy ===
/** The update engine's `ErrorCode` enumeration as the 32-bit integer it is
    stored in. Base codes occupy the low range, raw HTTP statuses are encoded
    as `kOmahaRequestHTTPResponseBase + status`, and the four top bits are
    special flags that callers OR into a base code for extra context.

    A code is modelled by its 32-bit pattern read as an unsigned number, so
    the bit operations the source performs on it become arithmetic on
    powers of two: the low 28 bits are `code % 2^28`, the flag bits are
    `code / 2^28`.

    The numeric values come from the upstream header `error_code.h`, which is
    not part of this model. The proofs rely only on the values being pairwise
    distinct, every base enumerator lying below the HTTP base, and the flag
    layout below. */
module ErrorCodes {

  /** `ErrorCode` is an `enum class : int`: a 32-bit pattern. */
  type ErrorCode = c: int | 0 <= c < 0x1_0000_0000

  const kSuccess: ErrorCode := 0
  const kError: ErrorCode := 1
  const kOmahaRequestError: ErrorCode := 2
  const kOmahaResponseHandlerError: ErrorCode := 3
  const kFilesystemCopierError: ErrorCode := 4
  const kPostinstallRunnerError: ErrorCode := 5
  const kPayloadMismatchedType: ErrorCode := 6
  const kInstallDeviceOpenError: ErrorCode := 7
  const kKernelDeviceOpenError: ErrorCode := 8
  const kDownloadTransferError: ErrorCode := 9
  const kPayloadHashMismatchError: ErrorCode := 10
  const kPayloadSizeMismatchError: ErrorCode := 11
  const kDownloadPayloadVerificationError: ErrorCode := 12
  const kDownloadNewPartitionInfoError: ErrorCode := 13
  const kDownloadWriteError: ErrorCode := 14
  const kNewRootfsVerificationError: ErrorCode := 15
  const kNewKernelVerificationError: ErrorCode := 16
  const kSignedDeltaPayloadExpectedError: ErrorCode := 17
  const kDownloadPayloadPubKeyVerificationError: ErrorCode := 18
  const kPostinstallBootedFromFirmwareB: ErrorCode := 19
  const kDownloadStateInitializationError: ErrorCode := 20
  const kDownloadInvalidMetadataMagicString: ErrorCode := 21
  const kDownloadSignatureMissingInManifest: ErrorCode := 22
  const kDownloadManifestParseError: ErrorCode := 23
  const kDownloadMetadataSignatureError: ErrorCode := 24
  const kDownloadMetadataSignatureVerificationError: ErrorCode := 25
  const kDownloadMetadataSignatureMismatch: ErrorCode := 26
  const kDownloadOperationHashVerificationError: ErrorCode := 27
  const kDownloadOperationExecutionError: ErrorCode := 28
  const kDownloadOperationHashMismatch: ErrorCode := 29
  const kOmahaRequestEmptyResponseError: ErrorCode := 30
  const kOmahaRequestXMLParseError: ErrorCode := 31
  const kDownloadInvalidMetadataSize: ErrorCode := 32
  const kDownloadInvalidMetadataSignature: ErrorCode := 33
  const kOmahaResponseInvalid: ErrorCode := 34
  const kOmahaUpdateIgnoredPerPolicy: ErrorCode := 35
  const kOmahaUpdateDeferredPerPolicy: ErrorCode := 36
  const kOmahaErrorInHTTPResponse: ErrorCode := 37
  const kDownloadOperationHashMissingError: ErrorCode := 38
  const kDownloadMetadataSignatureMissingError: ErrorCode := 39
  const kOmahaUpdateDeferredForBackoff: ErrorCode := 40
  const kPostinstallPowerwashError: ErrorCode := 41
  const kUpdateCanceledByChannelChange: ErrorCode := 42
  const kPostinstallFirmwareRONotUpdatable: ErrorCode := 43
  const kUnsupportedMajorPayloadVersion: ErrorCode := 44
  const kUnsupportedMinorPayloadVersion: ErrorCode := 45
  const kOmahaRequestXMLHasEntityDecl: ErrorCode := 46
  const kFilesystemVerifierError: ErrorCode := 47
  const kUserCanceled: ErrorCode := 48
  const kNonCriticalUpdateInOOBE: ErrorCode := 49
  const kOmahaUpdateIgnoredOverCellular: ErrorCode := 50
  const kPayloadTimestampError: ErrorCode := 51
  const kUpdatedButNotActive: ErrorCode := 52
  const kNoUpdate: ErrorCode := 53
  const kRollbackNotPossible: ErrorCode := 54
  const kFirstActiveOmahaPingSentPersistenceError: ErrorCode := 55
  const kVerityCalculationError: ErrorCode := 56
  const kInternalLibCurlError: ErrorCode := 57
  const kUnresolvedHostError: ErrorCode := 58
  const kUnresolvedHostRecovered: ErrorCode := 59
  const kNotEnoughSpace: ErrorCode := 60
  const kDeviceCorrupted: ErrorCode := 61
  const kPackageExcludedFromUpdate: ErrorCode := 62
  const kPostInstallMountError: ErrorCode := 63
  const kOverlayfsenabledError: ErrorCode := 64
  const kUpdateProcessing: ErrorCode := 65
  const kUpdateAlreadyInstalled: ErrorCode := 66

  /** One past the last base code reported to telemetry as-is. */
  const kUmaReportedMax: ErrorCode := 67

  /** Start of the sub-range that encodes a raw HTTP status: base + status. */
  const kOmahaRequestHTTPResponseBase: ErrorCode := 2000

  /** Special flag bits, set on top of a base code. `kDevModeFlag` is
      `1 << 31`, which makes a flagged code negative as a signed `int`. */
  const kDevModeFlag: ErrorCode := 0x8000_0000
  const kResumedFlag: ErrorCode := 0x4000_0000
  const kTestImageFlag: ErrorCode := 0x2000_0000
  const kTestOmahaUrlFlag: ErrorCode := 0x1000_0000

  /** The bitwise OR of the four special flags: the top four bits. */
  const kSpecialFlags: ErrorCode := 0xF000_0000

  /** The weight of the lowest flag bit; every bit below it belongs to the
      base code. */
  const kFlagUnit: int := 0x1000_0000

  /** The four flag bits of a code, as a number from 0 to 15. */
  function FlagBits(code: ErrorCode): (bits: nat)
    ensures bits < 16
  {
    code / kFlagUnit
  }

  /** `static_cast<int>(code) & ~static_cast<int>(ErrorCode::kSpecialFlags)`:
      the code with every special-flag bit cleared, i.e. its low 28 bits. */
  function MaskSpecialFlags(code: ErrorCode): (base: ErrorCode)
    ensures base < kFlagUnit
    ensures code == FlagBits(code) * kFlagUnit + base
  {
    code % kFlagUnit
  }

  /** The value a code has as a signed 32-bit `int`. */
  function SignedValue(code: ErrorCode): (v: int)
  {
    if code < 0x8000_0000 then code else code - 0x1_0000_0000
  }

  /** A value made of special-flag bits only. */
  predicate IsFlagSet(flags: ErrorCode) {
    MaskSpecialFlags(flags) == 0
  }

  /** `code | flags` for a set of special flags: the base bits of `code`
      are kept and the flag bits are OR-ed. */
  function AddFlags(code: ErrorCode, flags: ErrorCode): (r: ErrorCode)
    requires IsFlagSet(flags)
  {
    MaskSpecialFlags(code) + (((FlagBits(code) as bv4) | (FlagBits(flags) as bv4)) as int) * kFlagUnit
  }

  /** `code & ~flags` for a set of special flags: the base bits of `code`
      are kept and the given flag bits are cleared. */
  function ClearFlags(code: ErrorCode, flags: ErrorCode): (r: ErrorCode)
    requires IsFlagSet(flags)
  {
    MaskSpecialFlags(code) + (((FlagBits(code) as bv4) & !(FlagBits(flags) as bv4)) as int) * kFlagUnit
  }

  /** `kOmahaRequestHTTPResponseBase + status`: the code produced for a raw
      HTTP status. */
  function HttpResponseCode(status: int): (code: ErrorCode)
    requires 0 <= status < 0x1_0000
    ensures FlagBits(code) == 0
  {
    kOmahaRequestHTTPResponseBase + status
  }

  /** Masking splits a code into its base and its flag bits, which add up
      to the code again; the base lies below the lowest flag bit. */
  lemma MaskSplitsCode(code: ErrorCode)
    ensures MaskSpecialFlags(code) < kTestOmahaUrlFlag
    ensures MaskSpecialFlags(code) + FlagBits(code) * kFlagUnit == code
    ensures MaskSpecialFlags(code) == code <==> FlagBits(code) == 0
  {
  }

  /** Every flag constant is a flag set of exactly one bit, and
      `kSpecialFlags` has all four. */
  lemma FlagConstants()
    ensures IsFlagSet(kDevModeFlag) && FlagBits(kDevModeFlag) == 8
    ensures IsFlagSet(kResumedFlag) && FlagBits(kResumedFlag) == 4
    ensures IsFlagSet(kTestImageFlag) && FlagBits(kTestImageFlag) == 2
    ensures IsFlagSet(kTestOmahaUrlFlag) && FlagBits(kTestOmahaUrlFlag) == 1
    ensures IsFlagSet(kSpecialFlags) && FlagBits(kSpecialFlags) == 15
  {
  }

  /** `kSpecialFlags` is the OR of the four flags. */
  lemma SpecialFlagsIsUnionOfFlags()
    ensures AddFlags(AddFlags(AddFlags(kDevModeFlag, kResumedFlag), kTestImageFlag),
                     kTestOmahaUrlFlag) == kSpecialFlags
  {
    FlagConstants();
    assert AddFlags(kDevModeFlag, kResumedFlag) == 0xC000_0000;
    assert AddFlags(0xC000_0000, kTestImageFlag) == 0xE000_0000;
  }

  /** Setting or clearing special flags never changes the masked code. */
  lemma MaskIgnoresFlags(code: ErrorCode, flags: ErrorCode)
    requires IsFlagSet(flags)
    ensures MaskSpecialFlags(AddFlags(code, flags)) == MaskSpecialFlags(code)
    ensures MaskSpecialFlags(ClearFlags(code, flags)) == MaskSpecialFlags(code)
  {
  }

  /** Masking is idempotent. */
  lemma MaskIdempotent(code: ErrorCode)
    ensures MaskSpecialFlags(MaskSpecialFlags(code)) == MaskSpecialFlags(code)
  {
  }

  /** A masked code is non-negative as a signed `int`, so the source's signed
      comparisons on it agree with the unsigned ones. */
  lemma MaskedIsNonNegative(code: ErrorCode)
    ensures SignedValue(MaskSpecialFlags(code)) == MaskSpecialFlags(code)
  {
  }

  /** A code with `kDevModeFlag` set is negative as a signed `int`. */
  lemma DevModeFlagIsNegative(code: ErrorCode)
    ensures SignedValue(AddFlags(code, kDevModeFlag)) < 0
  {
  }
}

=== FILE: metrics.dfy ===
/** The telemetry-facing enumerations the classifier maps into (the
    `metrics::` namespace). Their numeric values live in the upstream header
    `metrics_constants.h`, which is not part of this model; only
    `DownloadErrorCode` is numeric here, because the classifier computes
    some of its values arithmetically. */
module Metrics {

  /** `metrics::AttemptResult`: the outcome bucket of an update attempt. */
  datatype AttemptResult =
    | UpdateSucceeded
    | UpdateSucceededNotActive
    | PayloadDownloadError
    | MetadataMalformed
    | OperationMalformed
    | OperationExecutionError
    | MetadataVerificationFailed
    | PayloadVerificationFailed
    | VerificationFailed
    | PostInstallFailed
    | UpdateCanceled
    | UpdateSkipped
    | InternalError

  /** `metrics::DownloadErrorCode`, an `int`-valued enumeration. Values from
      `kHttpStatus200` up to `kHttpStatus200 + 399` stand for HTTP statuses
      200 to 599. */
  type DownloadErrorCode = int

  const kDownloadError: DownloadErrorCode := 0
  const kUnresolvedHostRecovered: DownloadErrorCode := 97
  const kUnresolvedHostError: DownloadErrorCode := 98
  const kInternalLibCurlError: DownloadErrorCode := 99
  const kInputMalformed: DownloadErrorCode := 100
  const kHttpStatusOther: DownloadErrorCode := 101
  const kHttpStatus200: DownloadErrorCode := 200

  /** The named enumerators, i.e. every value that is not an HTTP status. */
  const NamedDownloadErrors: set<DownloadErrorCode> := {
    kDownloadError, kUnresolvedHostRecovered, kUnresolvedHostError,
    kInternalLibCurlError, kInputMalformed, kHttpStatusOther
  }

  /** `d` is one of the values that stand for an HTTP status from 200 to
      599. */
  predicate IsHttpStatusValue(d: DownloadErrorCode) {
    kHttpStatus200 <= d <= kHttpStatus200 + 399
  }

  /** `metrics::ConnectionType`: the connection reported to telemetry. */
  datatype ConnectionType =
    | Unknown
    | Ethernet
    | Wifi
    | Wimax
    | Bluetooth
    | Cellular
    | TetheredEthernet
    | TetheredWifi
    | Disconnected
}

/** The network manager's view of the current connection. */
module Network {

  /** `ConnectionType`. `Unrecognized` stands for any other value an
      `enum class` variable can hold, which the classifier must still map. */
  datatype ConnectionType =
    | Disconnected
    | Ethernet
    | Wifi
    | Cellular
    | Unknown
    | Unrecognized

  /** `ConnectionTethering`: whether the connection is shared from another
      device. */
  datatype ConnectionTethering =
    | NotDetected
    | Suspected
    | Confirmed
    | TetheringUnknown
}

=== FILE: metrics_persistence.dfy ===
/** The helpers of `metrics_utils.cc` that checkpoint update-attempt
    counters and timestamps in the preference store, read them back, and
    derive the time-to-reboot metric. The monotonic clock and the wall
    clock are parameters: each helper receives the reading it would have
    taken. Times are `base::Time` internal values, in microseconds. */
module MetricsPersistence {
  import opened Wrappers
  import opened SubKeys
  import opened Prefs

  /** Preference keys the helpers write. */
  const kPrefsNumReboots: Key := "num-reboots"
  const kPrefsPayloadAttemptNumber: Key := "payload-attempt-number"
  const kPrefsSystemUpdatedMarker: Key := "system-updated-marker"
  const kPrefsUpdateTimestampStart: Key := "update-timestamp-start"
  const kPrefsUpdateBootTimestampStart: Key := "update-boot-timestamp-start"

  /** `Time::kMicrosecondsPerMinute`. */
  const kMicrosecondsPerMinute: int := 60_000_000

  /** `GetPersistedValue`: the non-negative integer stored under `key`, or
      0 when the key is missing, holds something that is not an integer, or
      holds a negative integer. */
  function GetPersistedValue(key: Key, s: Store): (r: int64)
    ensures r >= 0
    ensures r > 0 ==> GetInt64(s, key) == Some(r)
    ensures (exists v: int64 :: v >= 0 && GetInt64(s, key) == Some(v)) ==> GetInt64(s, key) == Some(r)
  {
    if !Exists(s, key) then 0
    else
      match GetInt64(s, key)
      case None => 0
      case Some(v) => if v < 0 then 0 else v
  }

  /** `SetNumReboots`: stores the reboot count of the current attempt. */
  function SetNumReboots(numReboots: int64, s: Store): (r: Outcome)
    ensures r.ok
    ensures GetInt64(r.store, kPrefsNumReboots) == Some(numReboots)
    ensures forall k :: k != kPrefsNumReboots ==> GetInt64(r.store, k) == GetInt64(s, k)
    ensures r.store.View() == s.View()[kPrefsNumReboots := Int64Value(numReboots)]
    ensures r.notified == Notify(s.ObserversOf(kPrefsNumReboots), kPrefsNumReboots, false)
    ensures r.store.observers == s.observers && r.store.InTransaction() == s.InTransaction()
    ensures s.InTransaction() ==> r.store.committed == s.committed
  {
    SetInt64(s, kPrefsNumReboots, numReboots)
  }

  /** `SetPayloadAttemptNumber`: stores the payload attempt number. */
  function SetPayloadAttemptNumber(attemptNumber: int64, s: Store): (r: Outcome)
    ensures r.ok
    ensures GetInt64(r.store, kPrefsPayloadAttemptNumber) == Some(attemptNumber)
    ensures forall k :: k != kPrefsPayloadAttemptNumber ==> GetInt64(r.store, k) == GetInt64(s, k)
    ensures r.store.View() == s.View()[kPrefsPayloadAttemptNumber := Int64Value(attemptNumber)]
    ensures r.notified == Notify(s.ObserversOf(kPrefsPayloadAttemptNumber), kPrefsPayloadAttemptNumber, false)
    ensures r.store.observers == s.observers && r.store.InTransaction() == s.InTransaction()
    ensures s.InTransaction() ==> r.store.committed == s.committed
  {
    SetInt64(s, kPrefsPayloadAttemptNumber, attemptNumber)
  }

  /** `SetSystemUpdatedMarker`: stores the monotonic time `now` at which
      the update finished. */
  function SetSystemUpdatedMarker(now: int64, s: Store): (r: Outcome)
    ensures r.ok
    ensures GetInt64(r.store, kPrefsSystemUpdatedMarker) == Some(now)
    ensures forall k :: k != kPrefsSystemUpdatedMarker ==> GetInt64(r.store, k) == GetInt64(s, k)
    ensures r.store.View() == s.View()[kPrefsSystemUpdatedMarker := Int64Value(now)]
    ensures r.notified == Notify(s.ObserversOf(kPrefsSystemUpdatedMarker), kPrefsSystemUpdatedMarker, false)
    ensures r.store.observers == s.observers && r.store.InTransaction() == s.InTransaction()
    ensures s.InTransaction() ==> r.store.committed == s.committed
  {
    SetInt64(s, kPrefsSystemUpdatedMarker, now)
  }

  /** `SetUpdateTimestampStart`: stores the monotonic start time of the
      update. */
  function SetUpdateTimestampStart(start: int64, s: Store): (r: Outcome)
    ensures r.ok
    ensures GetInt64(r.store, kPrefsUpdateTimestampStart) == Some(start)
    ensures forall k :: k != kPrefsUpdateTimestampStart ==> GetInt64(r.store, k) == GetInt64(s, k)
    ensures r.store.View() == s.View()[kPrefsUpdateTimestampStart := Int64Value(start)]
    ensures r.notified == Notify(s.ObserversOf(kPrefsUpdateTimestampStart), kPrefsUpdateTimestampStart, false)
    ensures r.store.observers == s.observers && r.store.InTransaction() == s.InTransaction()
    ensures s.InTransaction() ==> r.store.committed == s.committed
  {
    SetInt64(s, kPrefsUpdateTimestampStart, start)
  }

  /** `SetUpdateBootTimestampStart`: stores the boot-clock start time of
      the update. */
  function SetUpdateBootTimestampStart(start: int64, s: Store): (r: Outcome)
    ensures r.ok
    ensures GetInt64(r.store, kPrefsUpdateBootTimestampStart) == Some(start)
    ensures forall k :: k != kPrefsUpdateBootTimestampStart ==> GetInt64(r.store, k) == GetInt64(s, k)
    ensures r.store.View() == s.View()[kPrefsUpdateBootTimestampStart := Int64Value(start)]
    ensures r.notified == Notify(s.ObserversOf(kPrefsUpdateBootTimestampStart), kPrefsUpdateBootTimestampStart, false)
    ensures r.store.observers == s.observers && r.store.InTransaction() == s.InTransaction()
    ensures s.InTransaction() ==> r.store.committed == s.committed
  {
    SetInt64(s, kPrefsUpdateBootTimestampStart, start)
  }

  /** `TimeDelta::InMinutes` of a non-negative delta: whole minutes,
      rounded down. */
  function InMinutes(delta: nat): (minutes: nat)
    ensures minutes * kMicrosecondsPerMinute <= delta < (minutes + 1) * kMicrosecondsPerMinute
  {
    delta / kMicrosecondsPerMinute
  }

  /** `LoadAndReportTimeToReboot`, given the monotonic time `now`: the
      minutes reported as time to reboot, or `None` when it returns false
      and reports nothing. Nothing is reported without a positive persisted
      marker, or when the clock reads earlier than the marker. */
  function LoadAndReportTimeToReboot(s: Store, now: int64): (reported: Option<nat>)
    ensures reported.Some? <==>
      GetPersistedValue(kPrefsSystemUpdatedMarker, s) != 0
      && now >= GetPersistedValue(kPrefsSystemUpdatedMarker, s)
    ensures reported.Some? ==>
      var elapsed := now - GetPersistedValue(kPrefsSystemUpdatedMarker, s);
      reported.value * kMicrosecondsPerMinute <= elapsed < (reported.value + 1) * kMicrosecondsPerMinute
  {
    var stored := GetPersistedValue(kPrefsSystemUpdatedMarker, s);
    if stored == 0 then None
    else
      // The difference is taken on unbounded integers.
      var timeToReboot := now - stored;
      if timeToReboot < 0 then None
      else Some(InMinutes(timeToReboot))
  }

  /** Persisting a counter and reading it back gives the counter when it is
      non-negative and 0 otherwise. */
  lemma PersistedValueRoundTrip(s: Store, key: Key, value: int64)
    requires ValidKey(key)
    ensures GetPersistedValue(key, SetInt64(s, key, value).store) == (if value < 0 then 0 else value)
  {
  }

  /** A missing key, or one holding a non-integer, reads as 0. */
  lemma PersistedValueDefaultsToZero(s: Store, key: Key)
    requires GetInt64(s, key).None?
    ensures GetPersistedValue(key, s) == 0
  {
  }

  /** The time to reboot measured from a marker set at `marked`: the whole
      minutes from `marked` to `now`. A marker at time 0 is
      indistinguishable from no marker at all and reports nothing. */
  lemma TimeToRebootAfterMarker(s: Store, marked: int64, now: int64)
    ensures var reported := LoadAndReportTimeToReboot(SetSystemUpdatedMarker(marked, s).store, now);
      reported == (if marked <= 0 || now < marked then None
                   else Some((now - marked) / kMicrosecondsPerMinute))
  {
    var st := SetSystemUpdatedMarker(marked, s).store;
    assert GetInt64(st, kPrefsSystemUpdatedMarker) == Some(marked);
  }
}

=== FILE: prefs.dfy ===
/** A reference model of the preference store contract (`PrefsInterface`):
    typed key/value entries, existence and deletion, namespace-suffix
    deletion, per-key observers and a shadow-copy transaction.

    The store keeps a committed map and, while a transaction is open, a
    shadow copy of it. Reads and writes go to the working view: the shadow
    when a transaction is open, the committed map otherwise. The committed
    map is what a reader that bypasses the transaction sees. */
module Prefs {
  import opened Wrappers
  import opened SubKeys

  /** C++ `int64_t`. */
  type int64 = x: int | -0x8000_0000_0000_0000 <= x < 0x8000_0000_0000_0000

  type Key = string

  /** An observer is known by its identity (the pointer in the source). */
  type ObserverId = nat

  /** A stored value; reading it as another type fails. */
  datatype Value = StringValue(s: string) | Int64Value(i: int64) | BoolValue(b: bool)

  /** A call made on an observer. */
  datatype Notification =
    | OnPrefSet(observer: ObserverId, key: Key)
    | OnPrefDeleted(observer: ObserverId, key: Key)

  datatype Store = Store(
    committed: map<Key, Value>,
    shadow: Option<map<Key, Value>>,
    observers: map<Key, seq<ObserverId>>)
  {
    predicate InTransaction() {
      shadow.Some?
    }

    /** The entries reads and writes act on. */
    function View(): map<Key, Value> {
      if shadow.Some? then shadow.value else committed
    }

    /** Replaces the working view, leaving the other map alone. */
    function WithView(m: map<Key, Value>): (s: Store)
      ensures s.View() == m
      ensures s.observers == observers && s.InTransaction() == InTransaction()
      ensures InTransaction() ==> s.committed == committed
    {
      if shadow.Some? then this.(shadow := Some(m)) else this.(committed := m)
    }

    /** The observers registered for exactly `key`, in registration order. */
    function ObserversOf(key: Key): seq<ObserverId> {
      if key in observers then observers[key] else []
    }
  }

  /** A fresh store: nothing stored, no transaction, no observers. */
  const EmptyStore: Store := Store(map[], None, map[])

  /** The store after a call, the call's boolean result and the observer
      calls it made, in order. */
  datatype Outcome = Outcome(store: Store, ok: bool, notified: seq<Notification>)

  predicate NoDuplicates(xs: seq<ObserverId>) {
    forall i, j :: 0 <= i < j < |xs| ==> xs[i] != xs[j]
  }

  /** The invariant every reachable store keeps: only valid keys are stored
      and each key's observer list holds an observer at most once. */
  predicate Valid(s: Store) {
    && (forall k :: k in s.committed ==> ValidKey(k))
    && (s.shadow.Some? ==> forall k :: k in s.shadow.value ==> ValidKey(k))
    && ObserversDistinct(s)
  }

  /** Each key's observer list holds an observer at most once. */
  predicate ObserversDistinct(s: Store) {
    forall k :: k in s.observers ==> NoDuplicates(s.observers[k])
  }

  /** No observer call is made twice. */
  predicate NoRepeatedCalls(notes: seq<Notification>) {
    forall i, j :: 0 <= i < j < |notes| ==> notes[i] != notes[j]
  }

  lemma EmptyStoreValid()
    ensures Valid(EmptyStore)
  {
  }

  // ---------------------------------------------------------------------
  // Reads

  /** `GetString`: succeeds exactly when a string is stored under `key`. */
  function GetString(s: Store, key: Key): (r: Option<string>)
    ensures r.Some? <==> key in s.View() && s.View()[key].StringValue?
    ensures r.Some? ==> s.View()[key] == StringValue(r.value)
  {
    if key in s.View() && s.View()[key].StringValue? then Some(s.View()[key].s) else None
  }

  /** `GetInt64`: succeeds exactly when an integer is stored under `key`. */
  function GetInt64(s: Store, key: Key): (r: Option<int64>)
    ensures r.Some? <==> key in s.View() && s.View()[key].Int64Value?
    ensures r.Some? ==> s.View()[key] == Int64Value(r.value)
  {
    if key in s.View() && s.View()[key].Int64Value? then Some(s.View()[key].i) else None
  }

  /** `GetBoolean`: succeeds exactly when a boolean is stored under `key`. */
  function GetBoolean(s: Store, key: Key): (r: Option<bool>)
    ensures r.Some? <==> key in s.View() && s.View()[key].BoolValue?
    ensures r.Some? ==> s.View()[key] == BoolValue(r.value)
  {
    if key in s.View() && s.View()[key].BoolValue? then Some(s.View()[key].b) else None
  }

  /** `Exists`: some value, of any type, is stored under `key`. */
  function Exists(s: Store, key: Key): (b: bool)
    ensures b <==> GetString(s, key).Some? || GetInt64(s, key).Some? || GetBoolean(s, key).Some?
  {
    key in s.View()
  }

  /** The keys of `view` inside namespace `ns`. */
  function KeysIn(view: map<Key, Value>, ns: Key): (ks: set<Key>)
    ensures forall k :: k in ks <==> k in view && InNamespace(k, ns)
  {
    set k | k in view && InNamespace(k, ns)
  }

  /** `GetSubKeys`: the stored keys inside namespace `ns`; fails when `ns`
      is not a valid key. */
  function GetSubKeys(s: Store, ns: Key): (r: Option<set<Key>>)
    ensures r.Some? <==> ValidKey(ns)
    ensures r.Some? ==> forall k :: k in r.value <==> k in s.View() && InNamespace(k, ns)
  {
    if ValidKey(ns) then Some(KeysIn(s.View(), ns)) else None
  }

  // ---------------------------------------------------------------------
  // Observers

  /** One notification per observer, in registration order. */
  function Notify(observers: seq<ObserverId>, key: Key, deleted: bool): (ns: seq<Notification>)
    ensures |ns| == |observers|
    ensures forall i :: 0 <= i < |ns| ==>
      ns[i] == (if deleted then OnPrefDeleted(observers[i], key) else OnPrefSet(observers[i], key))
  {
    seq(|observers|, i requires 0 <= i < |observers| =>
      if deleted then OnPrefDeleted(observers[i], key) else OnPrefSet(observers[i], key))
  }

  /** `xs` without any occurrence of `o`, order kept. */
  function Without(xs: seq<ObserverId>, o: ObserverId): (r: seq<ObserverId>)
    ensures o !in r
    ensures forall x :: x in r <==> x in xs && x != o
    ensures NoDuplicates(xs) ==> NoDuplicates(r)
  {
    if |xs| == 0 then []
    else if xs[0] == o then Without(xs[1..], o)
    else
      var rest := Without(xs[1..], o);
      assert NoDuplicates(xs) ==> xs[0] !in rest by {
        if NoDuplicates(xs) && xs[0] in rest {
          var j :| 1 <= j < |xs| && xs[j] == xs[0];
          assert false;
        }
      }
      [xs[0]] + rest
  }

  /** Removing an observer that is not in the list keeps the list as it
      is. */
  lemma {:induction false} WithoutAbsent(xs: seq<ObserverId>, o: ObserverId)
    requires o !in xs
    ensures Without(xs, o) == xs
    decreases |xs|
  {
    if |xs| > 0 {
      WithoutAbsent(xs[1..], o);
      assert xs == [xs[0]] + xs[1..];
    }
  }

  /** A list without repeats keeps none after its first element, and
      that element does not come back. */
  lemma TailNoDuplicates(xs: seq<ObserverId>)
    requires NoDuplicates(xs) && |xs| > 0
    ensures NoDuplicates(xs[1..]) && xs[0] !in xs[1..]
  {
    var tail := xs[1..];
    forall i, j | 0 <= i < j < |tail| ensures tail[i] != tail[j] {
      assert tail[i] == xs[i + 1] && tail[j] == xs[j + 1];
    }
    forall j | 0 <= j < |tail| ensures tail[j] != xs[0] {
      assert tail[j] == xs[j + 1];
    }
  }

  /** Putting an element in front moves the cut point of a list by one. */
  lemma ConsMovesCut(h: ObserverId, rest: seq<ObserverId>, o: ObserverId, i: nat)
    requires i <= |rest|
    ensures ([h] + rest)[..i + 1] + [o] + ([h] + rest)[i + 1..] == [h] + (rest[..i] + [o] + rest[i..])
  {
    assert ([h] + rest)[..i + 1] == [h] + rest[..i];
    assert ([h] + rest)[i + 1..] == rest[i..];
  }

  /** `o` at the head of a list without repeats is cut at position 0. */
  lemma CutAtHead(xs: seq<ObserverId>, o: ObserverId)
    requires NoDuplicates(xs) && |xs| > 0 && xs[0] == o
    ensures xs == Without(xs, o)[..0] + [o] + Without(xs, o)[0..]
  {
    TailNoDuplicates(xs);
    WithoutAbsent(xs[1..], o);
    assert Without(xs, o) == xs[1..];
    assert xs == [xs[0]] + xs[1..];
  }

  /** A head other than `o` stays in front, so the cut moves by one. */
  lemma CutPastHead(xs: seq<ObserverId>, o: ObserverId, j: nat)
    requires |xs| > 0 && xs[0] != o
    requires j <= |Without(xs[1..], o)|
    requires xs[1..] == Without(xs[1..], o)[..j] + [o] + Without(xs[1..], o)[j..]
    ensures j + 1 <= |Without(xs, o)| && xs == Without(xs, o)[..j + 1] + [o] + Without(xs, o)[j + 1..]
  {
    var rest := Without(xs[1..], o);
    assert Without(xs, o) == [xs[0]] + rest;
    ConsMovesCut(xs[0], rest, o, j);
    assert xs == [xs[0]] + xs[1..];
  }

  /** Removing the one occurrence of `o` from a list without repeats cuts
      it out and keeps every other observer in its place; `i` is where it
      stood. */
  lemma {:induction false} WithoutCutsAt(xs: seq<ObserverId>, o: ObserverId) returns (i: nat)
    requires NoDuplicates(xs) && o in xs
    ensures i <= |Without(xs, o)| && xs == Without(xs, o)[..i] + [o] + Without(xs, o)[i..]
    decreases |xs|
  {
    if xs[0] == o {
      CutAtHead(xs, o);
      i := 0;
    } else {
      TailNoDuplicates(xs);
      assert o in xs[1..] by {
        var k :| 0 <= k < |xs| && xs[k] == o;
        assert xs[1..][k - 1] == o;
      }
      var j := WithoutCutsAt(xs[1..], o);
      CutPastHead(xs, o, j);
      i := j + 1;
    }
  }

  /** The same, stated without naming the position. */
  lemma WithoutCutsOnce(xs: seq<ObserverId>, o: ObserverId)
    requires NoDuplicates(xs) && o in xs
    ensures exists i :: 0 <= i <= |Without(xs, o)| && xs == Without(xs, o)[..i] + [o] + Without(xs, o)[i..]
  {
    var i := WithoutCutsAt(xs, o);
  }

  /** `AddObserver`: `o` is watching `key` afterwards; nothing else changes.
      Registering an observer twice has no further effect. */
  function AddObserver(s: Store, key: Key, o: ObserverId): (r: Store)
    ensures o in r.ObserversOf(key)
    ensures forall x :: x in r.ObserversOf(key) <==> x in s.ObserversOf(key) || x == o
    ensures o in s.ObserversOf(key) ==> r == s
    ensures o !in s.ObserversOf(key) ==> r.ObserversOf(key) == s.ObserversOf(key) + [o]
    ensures forall k :: k != key ==> r.ObserversOf(k) == s.ObserversOf(k)
    ensures r.committed == s.committed && r.shadow == s.shadow
  {
    if o in s.ObserversOf(key) then s
    else s.(observers := s.observers[key := s.ObserversOf(key) + [o]])
  }

  /** `RemoveObserver`: `o` no longer watches `key`; the key's other
      observers keep their order, and other registrations and stored
      entries are unchanged. */
  function RemoveObserver(s: Store, key: Key, o: ObserverId): (r: Store)
    ensures o !in r.ObserversOf(key)
    ensures forall x :: x in r.ObserversOf(key) <==> x in s.ObserversOf(key) && x != o
    ensures o !in s.ObserversOf(key) ==> r.ObserversOf(key) == s.ObserversOf(key)
    ensures NoDuplicates(s.ObserversOf(key)) && o in s.ObserversOf(key) ==>
      exists i :: 0 <= i <= |r.ObserversOf(key)|
        && s.ObserversOf(key) == r.ObserversOf(key)[..i] + [o] + r.ObserversOf(key)[i..]
    ensures ObserversDistinct(s) ==> ObserversDistinct(r)
    ensures forall k :: k != key ==> r.ObserversOf(k) == s.ObserversOf(k)
    ensures r.committed == s.committed && r.shadow == s.shadow
  {
    if o !in s.ObserversOf(key) then
      WithoutAbsent(s.ObserversOf(key), o);
      s.(observers := s.observers[key := Without(s.ObserversOf(key), o)])
    else if NoDuplicates(s.ObserversOf(key)) then
      WithoutCutsOnce(s.ObserversOf(key), o);
      s.(observers := s.observers[key := Without(s.ObserversOf(key), o)])
    else
      s.(observers := s.observers[key := Without(s.ObserversOf(key), o)])
  }

  // ---------------------------------------------------------------------
  // Writes

  /** Stores `v` under `key` and notifies the key's observers. A key the
      store cannot name fails and leaves everything as it was. */
  function SetValue(s: Store, key: Key, v: Value): (r: Outcome)
    ensures r.ok <==> ValidKey(key)
    ensures r.ok ==> r.store.View() == s.View()[key := v]
    ensures r.ok ==> r.notified == Notify(s.ObserversOf(key), key, false)
    ensures !r.ok ==> r.store == s && r.notified == []
    ensures r.store.observers == s.observers && r.store.InTransaction() == s.InTransaction()
    ensures s.InTransaction() ==> r.store.committed == s.committed
  {
    if !ValidKey(key) then Outcome(s, false, [])
    else Outcome(s.WithView(s.View()[key := v]), true, Notify(s.ObserversOf(key), key, false))
  }

  /** `SetString`. */
  function SetString(s: Store, key: Key, value: string): (r: Outcome)
    ensures r.ok <==> ValidKey(key)
    ensures r.ok ==> GetString(r.store, key) == Some(value)
    ensures r.ok ==> r.store.View() == s.View()[key := StringValue(value)]
    ensures r.ok ==> r.notified == Notify(s.ObserversOf(key), key, false)
    ensures !r.ok ==> r.store == s && r.notified == []
    ensures r.store.observers == s.observers && r.store.InTransaction() == s.InTransaction()
    ensures s.InTransaction() ==> r.store.committed == s.committed
  {
    SetValue(s, key, StringValue(value))
  }

  /** `SetInt64`. */
  function SetInt64(s: Store, key: Key, value: int64): (r: Outcome)
    ensures r.ok <==> ValidKey(key)
    ensures r.ok ==> GetInt64(r.store, key) == Some(value)
    ensures r.ok ==> r.store.View() == s.View()[key := Int64Value(value)]
    ensures r.ok ==> r.notified == Notify(s.ObserversOf(key), key, false)
    ensures !r.ok ==> r.store == s && r.notified == []
    ensures r.store.observers == s.observers && r.store.InTransaction() == s.InTransaction()
    ensures s.InTransaction() ==> r.store.committed == s.committed
  {
    SetValue(s, key, Int64Value(value))
  }

  /** `SetBoolean`. */
  function SetBoolean(s: Store, key: Key, value: bool): (r: Outcome)
    ensures r.ok <==> ValidKey(key)
    ensures r.ok ==> GetBoolean(r.store, key) == Some(value)
    ensures r.ok ==> r.store.View() == s.View()[key := BoolValue(value)]
    ensures r.ok ==> r.notified == Notify(s.ObserversOf(key), key, false)
    ensures !r.ok ==> r.store == s && r.notified == []
    ensures r.store.observers == s.observers && r.store.InTransaction() == s.InTransaction()
    ensures s.InTransaction() ==> r.store.committed == s.committed
  {
    SetValue(s, key, BoolValue(value))
  }

  /** `Delete(key)`: afterwards nothing is stored under `key`; every other
      entry is unchanged. Deleting a missing key leaves the entries as they
      were and still succeeds. The key's observers are told either way. */
  function Delete(s: Store, key: Key): (r: Outcome)
    ensures r.ok <==> ValidKey(key)
    ensures r.ok ==> !Exists(r.store, key)
    ensures r.ok ==> forall k :: k != key ==> (k in r.store.View() <==> k in s.View())
    ensures r.ok ==> forall k :: k != key && k in s.View() ==> r.store.View()[k] == s.View()[k]
    ensures r.ok ==> r.notified == Notify(s.ObserversOf(key), key, true)
    ensures !Exists(s, key) ==> r.store == s
    ensures !r.ok ==> r.store == s && r.notified == []
    ensures r.store.observers == s.observers && r.store.InTransaction() == s.InTransaction()
    ensures s.InTransaction() ==> r.store.committed == s.committed
  {
    if !ValidKey(key) then Outcome(s, false, [])
    else
      var view := s.View() - {key};
      assert !Exists(s, key) ==> view == s.View();
      Outcome(s.WithView(view), true, Notify(s.ObserversOf(key), key, true))
  }

  // ---------------------------------------------------------------------
  // Namespace deletion

  /** The stored keys that `Delete(name, nss)` removes from `view`: `name`
      itself (the platform key), and in each namespace of `nss` the keys
      whose last segment is `name`. A namespace that is not a valid key
      contributes nothing, since listing it fails. */
  function NamespaceDeletions(view: map<Key, Value>, name: Key, nss: seq<Key>): (d: set<Key>)
    ensures d <= view.Keys
  {
    set k | k in view &&
      ((k == name && ValidKey(name)) ||
       (exists j :: 0 <= j < |nss| && ValidKey(nss[j]) && InNamespace(k, nss[j]) && LastSegment(k) == name))
  }

  /** Every delete that `Delete(name, nss)` performs succeeds: the platform
      key and every namespace are valid keys. */
  predicate AllDeletesSucceed(name: Key, nss: seq<Key>) {
    ValidKey(name) && forall j :: 0 <= j < |nss| ==> ValidKey(nss[j])
  }

  /** The keys of `keys` whose last segment is `name`. */
  function KeysNamed(keys: set<Key>, name: Key): (m: set<Key>)
    ensures m <= keys
    ensures forall k :: k in keys && LastSegment(k) == name ==> k in m
  {
    set k | k in keys && LastSegment(k) == name
  }

  /** Deleting the matches of one more namespace extends the deleted set by
      that namespace's contribution. */
  lemma NamespaceDeletionsStep(view: map<Key, Value>, name: Key, nss: seq<Key>, i: nat, cur: map<Key, Value>)
    requires i < |nss|
    requires cur == view - NamespaceDeletions(view, name, nss[..i])
    ensures ValidKey(nss[i]) ==>
      cur - KeysNamed(KeysIn(cur, nss[i]), name)
        == view - NamespaceDeletions(view, name, nss[..i + 1])
    ensures !ValidKey(nss[i]) ==> cur == view - NamespaceDeletions(view, name, nss[..i + 1])
    ensures ValidKey(nss[i]) ==>
      NamespaceDeletions(view, name, nss[..i + 1])
        == NamespaceDeletions(view, name, nss[..i]) + KeysNamed(KeysIn(cur, nss[i]), name)
    ensures !ValidKey(nss[i]) ==>
      NamespaceDeletions(view, name, nss[..i + 1]) == NamespaceDeletions(view, name, nss[..i])
  {
    var prefix := nss[..i + 1];
    assert prefix[..i] == nss[..i];
    assert forall j :: 0 <= j < i ==> prefix[j] == nss[j];
    assert prefix[i] == nss[i];
    if ValidKey(nss[i]) {
      var added := KeysNamed(KeysIn(cur, nss[i]), name);
      assert NamespaceDeletions(view, name, prefix)
        == NamespaceDeletions(view, name, nss[..i]) + added;
    } else {
      assert NamespaceDeletions(view, name, prefix) == NamespaceDeletions(view, name, nss[..i]);
    }
  }

  /** `notes` are exactly the `OnPrefDeleted` calls to every observer, as
      registered in `s`, of every key of `keys`. */
  ghost predicate DeletionsNotified(notes: seq<Notification>, keys: set<Key>, s: Store) {
    forall n :: n in notes <==> n.OnPrefDeleted? && n.key in keys && n.observer in s.ObserversOf(n.key)
  }

  /** The notifications of one `Delete` are exactly the deletion calls to
      that key's observers. */
  lemma DeleteNotifiesItsKey(obs: seq<ObserverId>, s: Store, key: Key)
    requires obs == s.ObserversOf(key)
    ensures DeletionsNotified(Notify(obs, key, true), {key}, s)
  {
    var ns := Notify(obs, key, true);
    forall n: Notification | n.OnPrefDeleted? && n.key == key && n.observer in obs ensures n in ns {
      var i :| 0 <= i < |obs| && obs[i] == n.observer;
      assert ns[i] == n;
    }
  }

  /** One call per registered observer: a list without repeated observers
      gives notifications without repeated calls. */
  lemma NotifyNoRepeats(obs: seq<ObserverId>, key: Key, deleted: bool)
    requires NoDuplicates(obs)
    ensures NoRepeatedCalls(Notify(obs, key, deleted))
  {
    var ns := Notify(obs, key, deleted);
    forall i, j | 0 <= i < j < |ns| ensures ns[i] != ns[j] {
      assert ns[i].observer == obs[i] && ns[j].observer == obs[j];
    }
  }

  /** Deletion calls about two disjoint sets of keys, each without
      repeats, have no repeats together. */
  lemma DeletionsNoRepeatsAppend(a: seq<Notification>, ka: set<Key>, b: seq<Notification>, kb: set<Key>, s: Store)
    requires DeletionsNotified(a, ka, s) && DeletionsNotified(b, kb, s)
    requires NoRepeatedCalls(a) && NoRepeatedCalls(b)
    requires ka !! kb
    ensures NoRepeatedCalls(a + b)
  {
    var ab := a + b;
    forall i, j | 0 <= i < j < |ab| ensures ab[i] != ab[j] {
      if j < |a| {
        assert ab[i] == a[i] && ab[j] == a[j];
      } else if i >= |a| {
        assert ab[i] == b[i - |a|] && ab[j] == b[j - |a|];
      } else {
        assert ab[i] == a[i] && a[i] in a;
        assert ab[j] == b[j - |a|] && b[j - |a|] in b;
      }
    }
  }

  /** Concatenated notifications cover the union of the keys. */
  lemma DeletionsNotifiedAppend(a: seq<Notification>, ka: set<Key>, b: seq<Notification>, kb: set<Key>, s: Store)
    requires DeletionsNotified(a, ka, s) && DeletionsNotified(b, kb, s)
    ensures DeletionsNotified(a + b, ka + kb, s)
  {
    forall n: Notification ensures n in a + b <==> n in a || n in b {
    }
  }

  /** A store whose entries only shrank, with the same observers and the
      same transaction state, keeps the store invariant. */
  lemma ShrinkKeepsValid(s: Store, r: Store)
    requires Valid(s)
    requires r.View().Keys <= s.View().Keys
    requires r.observers == s.observers && r.InTransaction() == s.InTransaction()
    requires s.InTransaction() ==> r.committed == s.committed
    ensures Valid(r)
  {
  }

  /** Deletes every key of `keys` whose last segment is `name`. */
  method DeleteNamed(st: Store, keys: set<Key>, name: Key) returns (r: Outcome)
    requires keys <= st.View().Keys
    requires forall k :: k in keys ==> ValidKey(k)
    ensures r.ok
    ensures r.store.View() == st.View() - KeysNamed(keys, name)
    ensures r.store.observers == st.observers && r.store.InTransaction() == st.InTransaction()
    ensures st.InTransaction() ==> r.store.committed == st.committed
    ensures forall n :: n in r.notified ==>
      n.OnPrefDeleted? && n.observer in st.ObserversOf(n.key) && n.key in KeysNamed(keys, name)
    ensures DeletionsNotified(r.notified, KeysNamed(keys, name), st)
    ensures ObserversDistinct(st) ==> NoRepeatedCalls(r.notified)
  {
    var cur := st;
    var ok := true;
    var notes: seq<Notification> := [];
    var pending := keys;
    while pending != {}
      invariant pending <= keys
      invariant ok
      invariant cur.View() == st.View() - KeysNamed(keys - pending, name)
      invariant cur.observers == st.observers && cur.InTransaction() == st.InTransaction()
      invariant st.InTransaction() ==> cur.committed == st.committed
      invariant forall n :: n in notes ==>
        n.OnPrefDeleted? && n.observer in st.ObserversOf(n.key) && n.key in KeysNamed(keys, name)
      invariant DeletionsNotified(notes, KeysNamed(keys - pending, name), st)
      invariant ObserversDistinct(st) ==> NoRepeatedCalls(notes)
      decreases pending
    {
      var key :| key in pending;
      if LastSegment(key) == name {
        var d := Delete(cur, key);
        DeleteNotifiesItsKey(cur.ObserversOf(key), st, key);
        DeletionsNotifiedAppend(notes, KeysNamed(keys - pending, name), d.notified, {key}, st);
        if ObserversDistinct(st) {
          NotifyNoRepeats(cur.ObserversOf(key), key, true);
          DeletionsNoRepeatsAppend(notes, KeysNamed(keys - pending, name), d.notified, {key}, st);
        }
        ok := d.ok && ok;
        cur := d.store;
        notes := notes + d.notified;
      }
      assert KeysNamed(keys - (pending - {key}), name)
        == KeysNamed(keys - pending, name) + (if LastSegment(key) == name then {key} else {});
      pending := pending - {key};
    }
    assert keys - pending == keys;
    r := Outcome(cur, ok, notes);
  }

  /** Deletes, inside namespace `ns`, each key whose last segment is
      `name`; fails, changing nothing, when `ns` cannot be listed. */
  method DeleteUnderNamespace(st: Store, name: Key, ns: Key) returns (r: Outcome)
    requires forall k :: k in st.View() ==> ValidKey(k)
    ensures r.ok <==> ValidKey(ns)
    ensures ValidKey(ns) ==>
      r.store.View() == st.View() - KeysNamed(KeysIn(st.View(), ns), name)
    ensures !ValidKey(ns) ==> r.store == st && r.notified == []
    ensures r.store.observers == st.observers && r.store.InTransaction() == st.InTransaction()
    ensures st.InTransaction() ==> r.store.committed == st.committed
    ensures forall n :: n in r.notified ==>
      n.OnPrefDeleted? && n.observer in st.ObserversOf(n.key) && InNamespace(n.key, ns)
    ensures ValidKey(ns) ==>
      DeletionsNotified(r.notified, KeysNamed(KeysIn(st.View(), ns), name), st)
    ensures ObserversDistinct(st) ==> NoRepeatedCalls(r.notified)
  {
    var listed := GetSubKeys(st, ns);
    if listed.None? {
      return Outcome(st, false, []);
    }
    r := DeleteNamed(st, listed.value, name);
  }

  /** Every key `Delete(name, nss)` reports deleted is the platform key or
      lies inside one of the namespaces. */
  lemma DeletedKeysInScope(notes: seq<Notification>, s: Store, name: Key, nss: seq<Key>)
    requires DeletionsNotified(notes, NamespaceDeletions(s.View(), name, nss) + PlatformKey(name), s)
    ensures forall n :: n in notes ==>
      n.OnPrefDeleted? && n.observer in s.ObserversOf(n.key)
      && (n.key == name || exists j :: 0 <= j < |nss| && InNamespace(n.key, nss[j]))
  {
    forall n | n in notes
      ensures n.key == name || exists j :: 0 <= j < |nss| && InNamespace(n.key, nss[j])
    {
      assert n.key in NamespaceDeletions(s.View(), name, nss) + PlatformKey(name);
    }
  }

  /** The platform key `Delete(name, nss)` deletes first, unless it is not
      a valid key; its observers are told even when nothing is stored. */
  function PlatformKey(name: Key): set<Key> {
    if ValidKey(name) then {name} else {}
  }

  /** The keys of `view` that deleting `name` under namespace `ns`
      removes; none when `ns` cannot be listed. */
  function NamespaceMatches(view: map<Key, Value>, name: Key, ns: Key): (m: set<Key>)
    ensures forall k :: k in m <==> ValidKey(ns) && k in view && InNamespace(k, ns) && LastSegment(k) == name
  {
    if ValidKey(ns) then KeysNamed(KeysIn(view, ns), name) else {}
  }

  /** A key already deleted, or the platform key, is not among the entries
      a later round lists. */
  lemma ForgottenKeysNotListed(s: Store, name: Key, nss: seq<Key>, i: nat, st: Store)
    requires i < |nss|
    requires st.View() == s.View() - NamespaceDeletions(s.View(), name, nss[..i])
    ensures NamespaceDeletions(s.View(), name, nss[..i]) + PlatformKey(name)
      !! NamespaceMatches(st.View(), name, nss[i])
  {
  }

  /** One round of `Delete(name, nss)`: deletes the matches under the
      namespace `nss[i]` from a store whose entries are those left after the
      first `i` namespaces. */
  method DeleteNextNamespace(s: Store, name: Key, nss: seq<Key>, i: nat, st: Store) returns (d: Outcome)
    requires i < |nss|
    requires st.View() == s.View() - NamespaceDeletions(s.View(), name, nss[..i])
    requires forall k :: k in st.View() ==> ValidKey(k)
    requires st.observers == s.observers
    ensures d.ok <==> ValidKey(nss[i])
    ensures d.store.View() == s.View() - NamespaceDeletions(s.View(), name, nss[..i + 1])
    ensures NamespaceDeletions(s.View(), name, nss[..i + 1])
      == NamespaceDeletions(s.View(), name, nss[..i]) + NamespaceMatches(st.View(), name, nss[i])
    ensures forall k :: k in d.store.View() ==> ValidKey(k)
    ensures d.store.observers == st.observers && d.store.InTransaction() == st.InTransaction()
    ensures st.InTransaction() ==> d.store.committed == st.committed
    ensures DeletionsNotified(d.notified, NamespaceMatches(st.View(), name, nss[i]), s)
    ensures ObserversDistinct(s) ==> NoRepeatedCalls(d.notified)
  {
    NamespaceDeletionsStep(s.View(), name, nss, i, st.View());
    d := DeleteUnderNamespace(st, name, nss[i]);
  }

  /** `Delete(pref_key, nss)`: deletes `name` from the platform and, in
      every namespace of `nss`, each key whose last segment is `name`.
      Reports success only if every listing and every delete succeeded. */
  method DeleteInNamespaces(s: Store, name: Key, nss: seq<Key>) returns (r: Outcome)
    requires Valid(s)
    ensures r.ok <==> AllDeletesSucceed(name, nss)
    ensures r.store.View() == s.View() - NamespaceDeletions(s.View(), name, nss)
    ensures r.store.observers == s.observers && r.store.InTransaction() == s.InTransaction()
    ensures s.InTransaction() ==> r.store.committed == s.committed
    ensures forall n :: n in r.notified ==>
      n.OnPrefDeleted? && n.observer in s.ObserversOf(n.key)
      && (n.key == name || exists j :: 0 <= j < |nss| && InNamespace(n.key, nss[j]))
    ensures DeletionsNotified(r.notified, NamespaceDeletions(s.View(), name, nss) + PlatformKey(name), s)
    ensures NoRepeatedCalls(r.notified)
    ensures Valid(r.store)
  {
    var first := Delete(s, name);
    var st := first.store;
    var ok := first.ok;
    var notes := first.notified;
    assert st.View() == s.View() - NamespaceDeletions(s.View(), name, nss[..0]);
    if ValidKey(name) {
      DeleteNotifiesItsKey(s.ObserversOf(name), s, name);
      NotifyNoRepeats(s.ObserversOf(name), name, true);
    }
    assert NamespaceDeletions(s.View(), name, nss[..0]) + PlatformKey(name) == PlatformKey(name);
    var i := 0;
    while i < |nss|
      invariant 0 <= i <= |nss|
      invariant ok <==> ValidKey(name) && forall j :: 0 <= j < i ==> ValidKey(nss[j])
      invariant st.View() == s.View() - NamespaceDeletions(s.View(), name, nss[..i])
      invariant forall k :: k in st.View() ==> ValidKey(k)
      invariant st.observers == s.observers && st.InTransaction() == s.InTransaction()
      invariant s.InTransaction() ==> st.committed == s.committed
      invariant DeletionsNotified(notes, NamespaceDeletions(s.View(), name, nss[..i]) + PlatformKey(name), s)
      invariant NoRepeatedCalls(notes)
    {
      var d := DeleteNextNamespace(s, name, nss, i, st);
      DeletionsNotifiedAppend(notes, NamespaceDeletions(s.View(), name, nss[..i]) + PlatformKey(name),
        d.notified, NamespaceMatches(st.View(), name, nss[i]), s);
      ForgottenKeysNotListed(s, name, nss, i, st);
      DeletionsNoRepeatsAppend(notes, NamespaceDeletions(s.View(), name, nss[..i]) + PlatformKey(name),
        d.notified, NamespaceMatches(st.View(), name, nss[i]), s);
      ok := d.ok && ok;
      st := d.store;
      notes := notes + d.notified;
      i := i + 1;
    }
    assert nss[..i] == nss;
    ShrinkKeepsValid(s, st);
    DeletedKeysInScope(notes, s, name, nss);
    r := Outcome(st, ok, notes);
  }

  // ---------------------------------------------------------------------
  // Transactions

  /** `StartTransaction`: opens a shadow copy of the committed entries.
      Fails, changing nothing, when a transaction is already open. */
  function StartTransaction(s: Store): (r: (Store, bool))
    ensures r.1 <==> !s.InTransaction()
    ensures r.1 ==> r.0.InTransaction() && r.0.View() == s.committed
    ensures r.0.committed == s.committed && r.0.observers == s.observers
    ensures !r.1 ==> r.0 == s
  {
    if s.InTransaction() then (s, false) else (s.(shadow := Some(s.committed)), true)
  }

  /** `CancelTransaction`: drops the shadow copy; the committed entries
      stay as they are. Fails when no transaction is open. */
  function CancelTransaction(s: Store): (r: (Store, bool))
    ensures r.1 <==> s.InTransaction()
    ensures !r.0.InTransaction()
    ensures r.0.committed == s.committed && r.0.observers == s.observers
  {
    if s.InTransaction() then (s.(shadow := None), true) else (s, false)
  }

  /** `SubmitTransaction`: the shadow copy becomes the committed entries in
      one step. Fails when no transaction is open. */
  function SubmitTransaction(s: Store): (r: (Store, bool))
    ensures r.1 <==> s.InTransaction()
    ensures !r.0.InTransaction()
    ensures r.0.committed == s.View() && r.0.observers == s.observers
  {
    if s.InTransaction() then (Store(s.shadow.value, None, s.observers), true) else (s, false)
  }

  // ---------------------------------------------------------------------
  // Sequences of calls

  /** A mutating call on the store, other than the transaction calls. */
  datatype Op =
    | SetOp(key: Key, value: Value)
    | DeleteOp(key: Key)
    | AddObserverOp(key: Key, observer: ObserverId)
    | RemoveObserverOp(key: Key, observer: ObserverId)

  /** The effect of one call. */
  function Apply(s: Store, op: Op): (r: Outcome)
    ensures r.store.InTransaction() == s.InTransaction()
    ensures s.InTransaction() ==> r.store.committed == s.committed
  {
    match op
    case SetOp(k, v) => SetValue(s, k, v)
    case DeleteOp(k) => Delete(s, k)
    case AddObserverOp(k, o) => Outcome(AddObserver(s, k, o), true, [])
    case RemoveObserverOp(k, o) => Outcome(RemoveObserver(s, k, o), true, [])
  }

  /** The calls of `ops` in order: the final store, whether every call
      succeeded, and all observer calls made. */
  function Run(s: Store, ops: seq<Op>): Outcome
    decreases |ops|
  {
    if |ops| == 0 then Outcome(s, true, [])
    else
      var first := Apply(s, ops[0]);
      var rest := Run(first.store, ops[1..]);
      Outcome(rest.store, first.ok && rest.ok, first.notified + rest.notified)
  }

  // ---------------------------------------------------------------------
  // Properties

  /** Every call keeps the store invariant. */
  lemma ApplyKeepsValid(s: Store, op: Op)
    requires Valid(s)
    ensures Valid(Apply(s, op).store)
  {
    var r := Apply(s, op).store;
    if op.SetOp? || op.DeleteOp? {
      assert forall k :: k in r.View() ==> k in s.View() || k == op.key;
    }
  }

  /** Opening, cancelling and submitting keep the store invariant. */
  lemma TransactionsKeepValid(s: Store)
    requires Valid(s)
    ensures Valid(StartTransaction(s).0)
    ensures Valid(CancelTransaction(s).0)
    ensures Valid(SubmitTransaction(s).0)
  {
  }

  /** A successful `SetInt64` is read back exactly, for every `int64`
      including zero and negative values; the same holds for strings and
      booleans. */
  lemma SetGetRoundTrip(s: Store, key: Key, str: string, i: int64, b: bool)
    requires ValidKey(key)
    ensures GetString(SetString(s, key, str).store, key) == Some(str)
    ensures GetInt64(SetInt64(s, key, i).store, key) == Some(i)
    ensures GetBoolean(SetBoolean(s, key, b).store, key) == Some(b)
    ensures Exists(SetInt64(s, key, i).store, key)
  {
  }

  /** Setting one key leaves every other key reading as before. */
  lemma SetLeavesOtherKeys(s: Store, key: Key, v: Value, other: Key)
    requires other != key
    ensures GetString(SetValue(s, key, v).store, other) == GetString(s, other)
    ensures GetInt64(SetValue(s, key, v).store, other) == GetInt64(s, other)
    ensures GetBoolean(SetValue(s, key, v).store, other) == GetBoolean(s, other)
    ensures Exists(SetValue(s, key, v).store, other) == Exists(s, other)
  {
  }

  /** Reads of a key that is not present fail, whatever the type. */
  lemma GetMissingKeyFails(s: Store, key: Key)
    requires !Exists(s, key)
    ensures GetString(s, key) == None
    ensures GetInt64(s, key) == None
    ensures GetBoolean(s, key) == None
  {
  }

  /** A key holding a value of another type exists but does not read as an
      integer: "absent" and "present but unreadable" are told apart. */
  lemma WrongTypeExistsButUnreadable(s: Store, key: Key, str: string)
    requires ValidKey(key)
    ensures Exists(SetString(s, key, str).store, key)
    ensures GetInt64(SetString(s, key, str).store, key) == None
  {
  }

  /** After a successful `Delete`, the key no longer exists and no read of
      it succeeds. */
  lemma DeleteThenGetFails(s: Store, key: Key)
    requires ValidKey(key)
    ensures !Exists(Delete(s, key).store, key)
    ensures GetInt64(Delete(s, key).store, key) == None
    ensures GetString(Delete(s, key).store, key) == None
    ensures GetBoolean(Delete(s, key).store, key) == None
  {
  }

  /** A `Set*` on `key` calls `OnPrefSet` on each observer of `key` and on
      no one else; a `Delete` likewise calls `OnPrefDeleted`. Watching is
      by exact key, never by prefix. */
  lemma ObserversNotifiedExactly(s: Store, key: Key, v: Value, o: ObserverId, k: Key)
    requires ValidKey(key)
    ensures OnPrefSet(o, k) in SetValue(s, key, v).notified <==> k == key && o in s.ObserversOf(key)
    ensures OnPrefDeleted(o, k) in Delete(s, key).notified <==> k == key && o in s.ObserversOf(key)
    ensures forall n :: n in SetValue(s, key, v).notified ==> n.OnPrefSet?
    ensures forall n :: n in Delete(s, key).notified ==> n.OnPrefDeleted?
  {
    var set_ := SetValue(s, key, v).notified;
    var del := Delete(s, key).notified;
    var obs := s.ObserversOf(key);
    if o in obs {
      var i :| 0 <= i < |obs| && obs[i] == o;
      assert set_[i] == OnPrefSet(o, key);
      assert del[i] == OnPrefDeleted(o, key);
    }
  }

  /** Once registered with `AddObserver`, an observer hears of every
      successful `Set*` and `Delete` of its key. */
  lemma AddedObserverIsNotified(s: Store, key: Key, o: ObserverId, v: Value)
    requires ValidKey(key)
    ensures OnPrefSet(o, key) in SetValue(AddObserver(s, key, o), key, v).notified
    ensures OnPrefDeleted(o, key) in Delete(AddObserver(s, key, o), key).notified
  {
    ObserversNotifiedExactly(AddObserver(s, key, o), key, v, o, key);
  }

  /** An observer that does not watch `key`, and that no later call
      registers for it, is never told about `key`. In particular, after
      `RemoveObserver(key, o)` the observer receives no further calls for
      `key`. */
  lemma {:induction false} UnwatchedKeyNotNotified(s: Store, ops: seq<Op>, key: Key, o: ObserverId)
    requires o !in s.ObserversOf(key)
    requires AddObserverOp(key, o) !in ops
    ensures OnPrefSet(o, key) !in Run(s, ops).notified
    ensures OnPrefDeleted(o, key) !in Run(s, ops).notified
    decreases |ops|
  {
    if |ops| > 0 {
      var first := Apply(s, ops[0]);
      assert ops[0] in ops;
      assert forall op :: op in ops[1..] ==> op in ops;
      match ops[0] {
        case SetOp(k, v) =>
          if ValidKey(k) { ObserversNotifiedExactly(s, k, v, o, key); }
        case DeleteOp(k) =>
          if ValidKey(k) { ObserversNotifiedExactly(s, k, StringValue(""), o, key); }
        case AddObserverOp(k, x) =>
        case RemoveObserverOp(k, x) =>
      }
      assert o !in first.store.ObserversOf(key);
      UnwatchedKeyNotNotified(first.store, ops[1..], key, o);
    }
  }

  /** `RemoveObserver` ends the notifications: whatever calls follow, as
      long as none registers `o` for `key` again. */
  lemma RemovedObserverNotNotified(s: Store, key: Key, o: ObserverId, ops: seq<Op>)
    requires AddObserverOp(key, o) !in ops
    ensures OnPrefSet(o, key) !in Run(RemoveObserver(s, key, o), ops).notified
    ensures OnPrefDeleted(o, key) !in Run(RemoveObserver(s, key, o), ops).notified
  {
    UnwatchedKeyNotNotified(RemoveObserver(s, key, o), ops, key, o);
  }

  /** While a transaction is open, no call changes the committed entries:
      a reader that bypasses the transaction sees none of its writes. */
  lemma {:induction false} TransactionIsolation(s: Store, ops: seq<Op>)
    requires s.InTransaction()
    ensures Run(s, ops).store.InTransaction()
    ensures Run(s, ops).store.committed == s.committed
    decreases |ops|
  {
    if |ops| > 0 {
      TransactionIsolation(Apply(s, ops[0]).store, ops[1..]);
    }
  }

  /** Start, any writes, Cancel: the committed entries are exactly those
      at `StartTransaction`, and none of the writes is visible. */
  lemma CancelRestoresCommitted(s: Store, ops: seq<Op>)
    requires !s.InTransaction()
    ensures var started := StartTransaction(s).0;
            var cancelled := CancelTransaction(Run(started, ops).store);
            cancelled.1 && cancelled.0.committed == s.committed && cancelled.0.View() == s.View()
  {
    TransactionIsolation(StartTransaction(s).0, ops);
  }

  /** Start, any writes, Submit: the committed entries become exactly the
      transaction's working copy. */
  lemma SubmitCommitsShadow(s: Store, ops: seq<Op>)
    requires !s.InTransaction()
    ensures var during := Run(StartTransaction(s).0, ops).store;
            var submitted := SubmitTransaction(during);
            submitted.1 && submitted.0.committed == during.shadow.value
  {
    TransactionIsolation(StartTransaction(s).0, ops);
  }

  /** Transactions do not nest: a second `StartTransaction` fails and
      leaves the open transaction untouched. */
  lemma NoNestedTransactions(s: Store)
    requires !s.InTransaction()
    ensures !StartTransaction(StartTransaction(s).0).1
    ensures StartTransaction(StartTransaction(s).0).0 == StartTransaction(s).0
  {
  }

  /** A call depends only on the working view and the observers: two
      stores that agree on both give the same result, the same observer
      calls, and again agree afterwards. */
  lemma ApplyMirrors(a: Store, b: Store, op: Op)
    requires a.View() == b.View() && a.observers == b.observers
    ensures Apply(a, op).store.View() == Apply(b, op).store.View()
    ensures Apply(a, op).store.observers == Apply(b, op).store.observers
    ensures Apply(a, op).ok == Apply(b, op).ok
    ensures Apply(a, op).notified == Apply(b, op).notified
  {
  }

  /** `ApplyMirrors` over a sequence of calls. */
  lemma {:induction false} RunMirrors(a: Store, b: Store, ops: seq<Op>)
    requires a.View() == b.View() && a.observers == b.observers
    ensures Run(a, ops).store.View() == Run(b, ops).store.View()
    ensures Run(a, ops).store.observers == Run(b, ops).store.observers
    ensures Run(a, ops).ok == Run(b, ops).ok
    ensures Run(a, ops).notified == Run(b, ops).notified
    decreases |ops|
  {
    if |ops| > 0 {
      ApplyMirrors(a, b, ops[0]);
      RunMirrors(Apply(a, ops[0]).store, Apply(b, ops[0]).store, ops[1..]);
    }
  }

  /** No call opens or closes a transaction. */
  lemma {:induction false} RunKeepsTransactionState(s: Store, ops: seq<Op>)
    ensures Run(s, ops).store.InTransaction() == s.InTransaction()
    decreases |ops|
  {
    if |ops| > 0 {
      RunKeepsTransactionState(Apply(s, ops[0]).store, ops[1..]);
    }
  }

  /** Start, any calls, Submit ends in exactly the store that making the
      same calls without a transaction gives, with the same results and
      the same observer calls. */
  lemma SubmitMatchesDirectRun(s: Store, ops: seq<Op>)
    requires !s.InTransaction()
    ensures var during := Run(StartTransaction(s).0, ops);
            SubmitTransaction(during.store) == (Run(s, ops).store, true)
            && during.ok == Run(s, ops).ok && during.notified == Run(s, ops).notified
  {
    var started := StartTransaction(s).0;
    RunMirrors(started, s, ops);
    TransactionIsolation(started, ops);
    RunKeepsTransactionState(s, ops);
  }
}

=== FILE: sub_keys.dfy ===
/** Hierarchical preference keys. A sub key joins namespace segments and a
    final key name with the reserved separator `kKeySeparator`. Splitting a
    key at every separator is the inverse of that join: keys and non-empty
    separator-free segment lists correspond one to one. */
module SubKeys {

  /** The key separator reserved by the preference store. */
  const kKeySeparator: char := '/'

  /** A segment that can be joined without ambiguity. */
  predicate IsSegment(seg: string) {
    kKeySeparator !in seg
  }

  /** Every segment of `segs` is separator-free. */
  predicate AreSegments(segs: seq<string>) {
    forall i :: 0 <= i < |segs| ==> IsSegment(segs[i])
  }

  /** Characters a stored key may contain: a key names a file (or a file
      inside namespace directories) of the preference store. */
  predicate IsKeyChar(c: char) {
    ('a' <= c <= 'z') || ('A' <= c <= 'Z') || ('0' <= c <= '9')
    || c == '_' || c == '-' || c == kKeySeparator
  }

  /** A key the store accepts: non-empty, over the key alphabet. */
  predicate ValidKey(key: string) {
    |key| > 0 && forall i :: 0 <= i < |key| ==> IsKeyChar(key[i])
  }

  /** `CreateSubKey`: the segments joined with the separator, in order. */
  function CreateSubKey(segs: seq<string>): (key: string)
    ensures |segs| >= 1 ==> segs[0] <= key
    decreases |segs|
  {
    if |segs| == 0 then ""
    else if |segs| == 1 then segs[0]
    else segs[0] + [kKeySeparator] + CreateSubKey(segs[1..])
  }

  /** Position of the first separator in `key`. */
  function FirstSeparator(key: string): (i: nat)
    requires kKeySeparator in key
    ensures i < |key| && key[i] == kKeySeparator
    ensures IsSegment(key[..i])
  {
    if key[0] == kKeySeparator then 0
    else
      assert kKeySeparator in key[1..] by {
        var j :| 0 <= j < |key| && key[j] == kKeySeparator;
        assert key[1..][j - 1] == kKeySeparator;
      }
      var j := FirstSeparator(key[1..]);
      assert key[..j + 1] == [key[0]] + key[1..][..j];
      j + 1
  }

  /** The segments of `key`, split at every separator. */
  function SplitKey(key: string): (segs: seq<string>)
    ensures |segs| >= 1
    ensures AreSegments(segs)
    decreases |key|
  {
    if kKeySeparator !in key then [key]
    else
      var i := FirstSeparator(key);
      [key[..i]] + SplitKey(key[i + 1..])
  }

  /** The segment after the last separator: the key's own name. */
  function LastSegment(key: string): (name: string)
    ensures IsSegment(name)
  {
    var segs := SplitKey(key);
    segs[|segs| - 1]
  }

  /** `key` lies inside namespace `ns`: it starts with `ns` and a separator. */
  predicate InNamespace(key: string, ns: string) {
    |key| > |ns| && key[..|ns|] == ns && key[|ns|] == kKeySeparator
  }

  /** In `seg + "/" + rest`, the first separator is the one after `seg`. */
  lemma FirstSeparatorAfterSegment(seg: string, rest: string)
    requires IsSegment(seg)
    ensures kKeySeparator in seg + [kKeySeparator] + rest
    ensures FirstSeparator(seg + [kKeySeparator] + rest) == |seg|
  {
    var key := seg + [kKeySeparator] + rest;
    assert key[|seg|] == kKeySeparator;
    assert key[..|seg|] == seg;
  }

  /** Joining then splitting gives back the segments. */
  lemma {:induction false} SplitCreateSubKey(segs: seq<string>)
    requires |segs| >= 1 && AreSegments(segs)
    ensures SplitKey(CreateSubKey(segs)) == segs
    decreases |segs|
  {
    if |segs| == 1 {
      assert CreateSubKey(segs) == segs[0];
    } else {
      var rest := CreateSubKey(segs[1..]);
      var key := CreateSubKey(segs);
      assert key == segs[0] + [kKeySeparator] + rest;
      FirstSeparatorAfterSegment(segs[0], rest);
      var i := FirstSeparator(key);
      assert key[..i] == segs[0];
      assert key[i + 1..] == rest;
      SplitCreateSubKey(segs[1..]);
      assert SplitKey(key) == [segs[0]] + segs[1..];
    }
  }

  /** A key is the part before position `i`, the separator at `i`, and
      the part after it. */
  lemma KeyAroundSeparator(key: string, i: nat)
    requires i < |key| && key[i] == kKeySeparator
    ensures key == key[..i] + [kKeySeparator] + key[i + 1..]
  {
    assert key == key[..i] + key[i..];
    assert key[i..] == [kKeySeparator] + key[i + 1..];
  }

  /** Joining a head segment with a non-empty list of segments. */
  lemma CreateSubKeyCons(head: string, tail: seq<string>)
    requires |tail| >= 1
    ensures CreateSubKey([head] + tail) == head + [kKeySeparator] + CreateSubKey(tail)
  {
    assert ([head] + tail)[1..] == tail;
  }

  /** Splitting then joining gives back the key. */
  lemma {:induction false} CreateSubKeySplit(key: string)
    ensures CreateSubKey(SplitKey(key)) == key
    decreases |key|
  {
    if kKeySeparator in key {
      var i := FirstSeparator(key);
      var head, rest := key[..i], key[i + 1..];
      CreateSubKeySplit(rest);
      assert SplitKey(key) == [head] + SplitKey(rest);
      CreateSubKeyCons(head, SplitKey(rest));
      KeyAroundSeparator(key, i);
    }
  }

  /** Distinct segment lists give distinct keys: the join is unambiguous as
      long as no segment contains the separator. */
  lemma CreateSubKeyInjective(a: seq<string>, b: seq<string>)
    requires |a| >= 1 && AreSegments(a)
    requires |b| >= 1 && AreSegments(b)
    ensures CreateSubKey(a) == CreateSubKey(b) <==> a == b
  {
    SplitCreateSubKey(a);
    SplitCreateSubKey(b);
  }

  /** Joining a concatenation puts one separator between the two joins. */
  lemma {:induction false} CreateSubKeyAppend(a: seq<string>, b: seq<string>)
    requires |a| >= 1 && |b| >= 1
    ensures CreateSubKey(a + b) == CreateSubKey(a) + [kKeySeparator] + CreateSubKey(b)
    decreases |a|
  {
    var ab := a + b;
    if |a| == 1 {
      assert ab[1..] == b;
      assert CreateSubKey(ab) == a[0] + [kKeySeparator] + CreateSubKey(b);
    } else {
      assert ab[1..] == a[1..] + b;
      CreateSubKeyAppend(a[1..], b);
      assert CreateSubKey(ab) == a[0] + [kKeySeparator] + CreateSubKey(a[1..] + b);
      assert CreateSubKey(a) == a[0] + [kKeySeparator] + CreateSubKey(a[1..]);
    }
  }

  /** A key joined from `n` separator-free segments holds exactly `n - 1`
      separators. */
  lemma {:induction false} CreateSubKeySeparators(segs: seq<string>)
    requires |segs| >= 1 && AreSegments(segs)
    ensures multiset(CreateSubKey(segs))[kKeySeparator] == |segs| - 1
    decreases |segs|
  {
    assert IsSegment(segs[0]);
    assert multiset(segs[0])[kKeySeparator] == 0;
    if |segs| > 1 {
      assert AreSegments(segs[1..]) by {
        forall i | 0 <= i < |segs| - 1 ensures IsSegment(segs[1..][i]) {
          assert segs[1..][i] == segs[i + 1];
        }
      }
      CreateSubKeySeparators(segs[1..]);
      assert CreateSubKey(segs) == segs[0] + [kKeySeparator] + CreateSubKey(segs[1..]);
    }
  }

  /** Appending a separator-free name keeps a list of segments. */
  lemma AppendSegment(ns: seq<string>, name: string)
    requires AreSegments(ns) && IsSegment(name)
    ensures AreSegments(ns + [name])
  {
    var segs := ns + [name];
    forall i | 0 <= i < |segs| ensures IsSegment(segs[i]) {
      if i < |ns| {
        assert segs[i] == ns[i];
      }
    }
  }

  /** `prefix`, a separator and a name form a key inside namespace
      `prefix`. */
  lemma JoinedKeyInNamespace(prefix: string, name: string)
    ensures InNamespace(prefix + [kKeySeparator] + name, prefix)
  {
    var key := prefix + [kKeySeparator] + name;
    assert key[..|prefix|] == prefix;
  }

  /** A sub key built from a namespace path and a name lies inside that
      namespace, and its last segment is the name. */
  lemma SubKeyInNamespace(ns: seq<string>, name: string)
    requires |ns| >= 1 && AreSegments(ns) && IsSegment(name)
    ensures InNamespace(CreateSubKey(ns + [name]), CreateSubKey(ns))
    ensures LastSegment(CreateSubKey(ns + [name])) == name
  {
    var segs := ns + [name];
    CreateSubKeyAppend(ns, [name]);
    assert CreateSubKey([name]) == name;
    JoinedKeyInNamespace(CreateSubKey(ns), name);
    AppendSegment(ns, name);
    SplitCreateSubKey(segs);
  }
}

=== FILE: wrappers.dfy ===
/** Helper datatype shared by the other modules. */
module Wrappers {

  /** A value that may be absent; stands for a `bool` result paired with an
      out-parameter that is only meaningful when the result is true. */
  datatype Option<+T> = None | Some(value: T)
}
